=== FILE: README.md ===
# cfdns in Dafny

A model of the reconciliation core of `cfdns`. This is a dynamic-DNS client that keeps Cloudflare `A`/`AAAA` records pointing at the current addresses of local network interfaces. The model covers:

- **Record model** (`Cloudflare`, from `src/cloudflare.rs`):
  - the change-detection step `DnsRecord::try_update`
  - `DnsContent` text conversions
  - the record-type/address-family conversions
  - `Ttl` and `ProxyMode` serialisation
  - the non-empty `Id` rule
  - `Response::ok`
  - the id checks of `create`/`update`
- **Reconciliation pass** (`Watchers`, from `src/watcher.rs`). `Watcher::poll` is a function over an abstract provider. It returns the new zones and records, the requests sent, and the outcome.
- **Watcher assembly** (`Assembly`, from `src/config/mod.rs`). `TryFrom<ConfigFile> for Config` resolves zones, synthesises records and groups zones into one watcher per token for each interface. `Settings` holds `Interval` and `Interface`.
- **Configuration file** (`FileConfig`, from `src/config/file.rs`): `ConfigFile::zone` and `validate`.
- **System snapshots** (`System`, from `src/system.rs`):
  - `InterfaceInfo::has_ip`/`address`
  - `extract_v4_address`/`extract_v6_address`
  - the `has_ip` filter of `IfConfig::new`
  - `Platform::from_str`
- **Commands**:
  - the one-shot branch of `sync` and its `should_watch` filter (`SyncCommand`, from `src/command/sync.rs`)
  - the record and watcher status classification of `show` (`ShowCommand`, from `src/command/show.rs`)

Supporting modules:
- `Results`: `Option`/`Result`
- `Decimal`: decimal text of numbers, for `Ttl` display
- `Seqs`: order-preserving filter and de-duplication
- `Scenarios`: three worked passes over one record

The Cloudflare HTTP API is an `Api` value of pure functions. `get`, `getByName`, `post` and `put` each stand for the HTTP exchange followed by `Response::ok`. Zone lookup by name is a `ZoneDirectory` function of token and name. The OS interface table is an `IfTable` map given as input. Address text syntax is an abstract `IpSyntax` pair (`parse`, `show`). Its round trip is the `Lawful` predicate, assumed only where a lemma says so.

Behaviours a reader might expect that the code does not have; the model follows the code:
- A failing record ends the whole pass of its watcher: later records and zones are not visited, and the error is returned (`src/watcher.rs:44`, `56`, `58`, `66`). Records are not isolated from each other.
- `Ttl(None)` is sent as `1`. Reading that back gives `Ttl(Some(1))`, not `Ttl(None)` (`Cloudflare.TtlRoundTrip`).
- Zone names are resolved in hash-set order (`src/config/mod.rs:127`). So an undefined zone does not always fail assembly before some other zone is fetched from the provider. The model fixes first-occurrence order and proves only order-free facts: an undefined zone fails assembly (`Assembly.UndefinedZoneFails`), and the zone directory is consulted only for declared zones without an id, since directories that agree on those give the same result (`Assembly.ResolveZonesConsults`, `Assembly.AssembleConsults`).

## Model

| member | source | states |
|---|---|---|
| Cloudflare.DeserializeId | src/cloudflare.rs:20-33 | an id is read only from a non-empty string and keeps it verbatim; the empty string is refused with the "cannot be empty" message |
| Cloudflare.TypeOfFamily | src/cloudflare.rs:81-89 | IPv4 gives `A`, IPv6 gives `AAAA`, and only a non-IP family gives `Other` |
| Cloudflare.FamilyOfType | src/cloudflare.rs:90-99 | succeeds exactly for `A` and `AAAA`, with a family that converts back to the same type; `CNAME`/`Other` fail |
| Cloudflare.FamilyRoundTrip | src/cloudflare.rs:81-99 | for IPv4 and IPv6, converting to a record type and back gives the family again |
| Cloudflare.SerializeTtl | src/cloudflare.rs:120-132 | a TTL is sent as a u32 number: its value when set, `1` (automatic) otherwise |
| Cloudflare.DisplayTtl | src/cloudflare.rs:111-119 | the displayed text is the canonical decimal text of the number sent: all digits, reading back as that number; an unset TTL displays as "1" |
| Cloudflare.DeserializeTtl | src/cloudflare.rs:108-110 | a missing TTL reads as unset; a present number is accepted exactly when it is a non-zero u32, and then reads as exactly that TTL; any other token is rejected |
| Cloudflare.OmittedFieldsDefaults | src/cloudflare.rs:76-156 | a record setting with omitted fields is an `A` record (IPv4), sent with the automatic TTL 1 and not proxied |
| Cloudflare.TtlRoundTrip | src/cloudflare.rs:108-132 | a set TTL survives sending and reading back; an unset one comes back as the explicit TTL 1 |
| Cloudflare.SerializeProxyMode | src/cloudflare.rs:143-166 | the proxy mode is sent as the boolean `as_bool` gives, `true` exactly for `Proxied` |
| Cloudflare.DeserializeProxyMode | src/cloudflare.rs:168-227 | `true` (bare or optional) reads as `Proxied`; `false`, null and unit read as `None`; other tokens are refused |
| Cloudflare.ProxyModeRoundTrip | src/cloudflare.rs:157-227 | every proxy mode survives sending and reading back, bare or wrapped as an optional value |
| Cloudflare.ContentOf | src/cloudflare.rs:317-337 | an address becomes content of its own family: `A` for IPv4, `AAAA` for IPv6 |
| Cloudflare.DisplayContent | src/cloudflare.rs:338-346 | addresses display through the address syntax; `Other` content displays as its text verbatim |
| Cloudflare.ParseContent | src/cloudflare.rs:347-357 | parsing never fails: address text gives the content of that address, anything else gives `Other` with the text verbatim |
| Cloudflare.ContentRoundTrip | src/cloudflare.rs:338-357 | with a lawful address syntax, any content whose `Other` text is not address text parses back from its display |
| Cloudflare.OpaqueTextRoundTrip | src/cloudflare.rs:343-354 | text that is not an address survives parsing and display unchanged |
| Cloudflare.TryUpdate | src/cloudflare.rs:256-285 | succeeds exactly when type and content are of the address's family, otherwise fails naming the record; on success the record holds the address, nothing else changes, and the change flag is true exactly when the content differed |
| Cloudflare.TryUpdateIdempotent | src/cloudflare.rs:256-285 | applying the same address again to an updated record reports no change and leaves it as it is |
| Cloudflare.Unwrap | src/cloudflare.rs:366-381 | a successful response yields its payload, or the null-payload error when there is none; a failed one yields the last error it lists |
| Cloudflare.UnwrapLastErrorDecides | src/cloudflare.rs:377 | only the last listed error decides a failed reply; errors listed before it are dropped |
| Cloudflare.Create | src/cloudflare.rs:471-491 | a record that already has an id is refused before any request; otherwise the provider's reply replaces the record |
| Cloudflare.Update | src/cloudflare.rs:493-514 | a record without an id is refused before any request; otherwise the provider's reply replaces the record |
| Cloudflare.GetZone | src/cloudflare.rs:53-60 | a lookup error passes through unchanged; a zone the provider does not know is the "no such zone" error; a found zone is returned as the provider lists it, with no records |
| System.FamilyOf | src/system.rs:99-105 | every address has an IP family |
| System.InterfaceInfo.Address | src/system.rs:99-105 | the IPv4 family yields the v4 address and the IPv6 family the v6 one, each present exactly when stored; any other family yields nothing |
| System.HasIpIffSomeAddress | src/system.rs:95-105 | an interface has an IP exactly when some family yields an address |
| System.FirstOfFamily | src/system.rs:116-142 | no result exactly when no entry has the family; otherwise the address of an entry of that family with none before it |
| System.ExtractV4 | src/system.rs:116-128 | no result exactly when no entry is IPv4; otherwise the v4 address of the first IPv4 entry |
| System.InfoOf | src/system.rs:107-114 | each family's address is that of the first listed entry of the family; the interface has an IP exactly when some entry is of an IP family |
| System.ExtractV6 | src/system.rs:130-142 | no result exactly when no entry is IPv6; otherwise the v6 address of the first IPv6 entry |
| System.Snapshots | src/system.rs:72-73 | one snapshot per system interface, in order, built from its address list |
| System.KeepWithIp | src/system.rs:71-77 | the table holds only interfaces that have an IP |
| System.KeepWithIpKeeps | src/system.rs:72-76 | every snapshot with an IP is in the table |
| System.KeepWithIpLastWins | src/system.rs:72-76 | each table entry is the snapshot of the last interface of that name |
| System.IfConfigNew | src/system.rs:68-80 | the interface table holds only interfaces that have an IP |
| System.IfConfigNewContents | src/system.rs:68-80 | an interface with an IP is in the table, and every table entry is the snapshot of a system interface of that name |
| System.PlatformFromStr | src/system.rs:22-34 | parsing never fails; a known model name gives its platform and any other text gives `Other` |
| System.PlatformRoundTrip | src/system.rs:25-33 | "UDM", "UDM-Pro", "UDM-SE" and "UDR" parse to `UDM`, `UDMP`, `UDMSE` and `UDR` |
| Decimal.Show | src/cloudflare.rs:111-119 | the decimal text of a number: non-empty, all digits, no leading zero, one digit exactly below ten |
| Decimal.ReadShow | src/cloudflare.rs:111-119 | reading the decimal text of a number gives the number back |
| Decimal.ShowInjective | src/cloudflare.rs:111-119 | distinct numbers have distinct decimal text |
| FileConfig.FindZone | src/config/file.rs:19-27 | no zone exactly when none is declared with the name; otherwise the first declared zone with it |
| FileConfig.Validate | src/config/file.rs:76-114 | succeeds exactly for a configuration with named interfaces, records with name, interface and zone, and zones with name and token; success returns the configuration unchanged; failure reports the first fault in interface, record, zone order |
| Seqs.Filter | src/command/sync.rs:96-101 | the kept elements are exactly those of the input that pass the test |
| Seqs.FilterConcat | src/command/sync.rs:96-106 | filtering distributes over concatenation, so relative order is kept |
| Seqs.Distinct | src/config/mod.rs:116-124 | the same members as the input, each once |
| Watchers.Desired | src/watcher.rs:39 | an `A` record wants the interface's IPv4 address and an `AAAA` record its IPv6 address, of the record's family |
| Watchers.Apply | src/watcher.rs:54-67 | earlier requests are kept and at most one write follows, carrying the new content: an update for a resolved record, a create for an unresolved one; no write exactly when the record is resolved and either refuses the address or already holds it, and then the record is unchanged |
| Watchers.SyncRecord | src/watcher.rs:39-73 | no interface address of the record's family means no request and no change; at most two requests; a failure without any request is the address-type refusal. The step is characterised case by case by `StepRequests`, `NoWriteWhenCurrent`, `UpdateWhenChanged`, `MismatchRefused`, `CreateWhenUnknown`, `LookupReplaces` and `LookupFailureKeepsRecord` |
| Watchers.StepRequests | src/watcher.rs:39-73 | a record with no interface address of its family is skipped with no request; an unresolved record is looked up first, exactly once; a resolved one is never looked up; at most one write follows |
| Watchers.NoWriteWhenCurrent | src/watcher.rs:55-61 | a resolved record already holding the address sends nothing and is unchanged |
| Watchers.UpdateWhenChanged | src/watcher.rs:55-58 | a resolved record with other content sends exactly one update with the new content, and the reply replaces it |
| Watchers.MismatchRefused | src/watcher.rs:56 | a resolved record whose type or content is of another family fails the step, unchanged and with no request |
| Watchers.CreateWhenUnknown | src/watcher.rs:41-53 | an unresolved record the provider does not have is created with the interface address right after its lookup |
| Watchers.LookupReplaces | src/watcher.rs:44-49 | a record found by the lookup replaces the local record wholesale for the rest of the step |
| Watchers.LookupFailureKeepsRecord | src/watcher.rs:44 | a failed lookup ends the step with the record untouched |
| Watchers.SyncRecords | src/watcher.rs:38-74 | the pass over a zone yields one record per record |
| Watchers.FirstFailure | src/watcher.rs:38-74 | the first record whose step fails: every earlier step succeeds |
| Watchers.SyncRecordsInOrder | src/watcher.rs:38-74 | records are visited in order; the first failing one ends the pass with its error; later records are untouched and send nothing |
| Watchers.SyncZones | src/watcher.rs:37-75 | zones keep their id, name and number of records |
| Watchers.SyncZonesStops | src/watcher.rs:37-75 | a failing pass stops at some zone: every zone before it passed, its error is the pass's, the requests are exactly those of the zones up to it, and no later zone is touched |
| Watchers.SyncZonesCompletes | src/watcher.rs:37-75 | a pass succeeds exactly when every zone's records pass, and then sends the requests of every zone in order |
| Watchers.Poll | src/watcher.rs:24-80 | an interface missing from the table fails the pass before any record is touched; otherwise the snapshot is refreshed, the token kept, and the zones, requests and outcome are those of the zone-by-zone pass over the new snapshot |
| Watchers.PollStops | src/watcher.rs:37-75 | a found interface whose pass fails stopped at one zone: earlier zones passed, that zone's error is the poll's, only requests up to it were sent, later zones are untouched |
| Watchers.PollCompletes | src/watcher.rs:37-75 | a found interface's poll succeeds exactly when every zone's records pass, and then it has sent every zone's requests in zone order |
| Watchers.StepSettles | src/watcher.rs:39-67 | against a provider that stores what it is sent, a successful step leaves the record resolved and holding the interface address |
| Watchers.SettledIsQuiet | src/watcher.rs:39-61 | a resolved record holding the interface address sends nothing and is unchanged |
| Watchers.StepWritesChecked | src/watcher.rs:55-67 | one record's step creates only records without an id and updates only records with one |
| Watchers.RecordsWritesChecked | src/watcher.rs:38-74 | the same holds for every write of the pass over a zone's records |
| Watchers.ZonesWritesChecked | src/watcher.rs:37-75 | the same holds for every write of the pass over all zones |
| Watchers.PollWritesChecked | src/watcher.rs:55-67 | a pass never trips the id checks of `create` and `update` (src/cloudflare.rs:472-474, 494-512): every write it sends reaches the provider |
| Watchers.PollTwiceIsQuiet | src/watcher.rs:24-80 | after a successful pass against a provider that stores what it is sent, a second pass on the same snapshot sends nothing and changes nothing |
| Assembly.ReferencedZones | src/config/mod.rs:116-124 | the zones to resolve are exactly those referenced by records or declared, each once |
| Assembly.ResolveZone | src/config/mod.rs:128-139 | an undeclared zone is "undefined zone"; a declared id is used directly with no records; the token is the declared one |
| Assembly.ResolveZones | src/config/mod.rs:126-141 | succeeds exactly when every name resolves, with exactly those names as keys; a failure is the error of one of the names |
| Assembly.ResolveZonesValues | src/config/mod.rs:126-141 | each resolved name maps to its own resolution |
| Assembly.ResolveZonesConsults | src/config/mod.rs:126-141 | two zone directories that agree on the declared zones without an id give the same resolution, so no other zone is looked up |
| Assembly.Synthesize | src/config/mod.rs:173-183 | one record per binding, with no id, the zone's id, name, type, proxy mode and TTL from the binding, and the interface address of the type's family; a non-address type or a missing address is an error |
| Assembly.BindZones | src/config/mod.rs:164-184 | each bound zone holds its token and its records synthesised for the interface |
| Assembly.Group | src/config/mod.rs:160-192 | every watcher has the interface, and no two share a token |
| Assembly.GroupHoldsZonesOfToken | src/config/mod.rs:185-192 | each watcher holds exactly the zones of its token, in order |
| Assembly.GroupTokens | src/config/mod.rs:185-192 | the watchers' tokens are exactly the zones' tokens |
| Assembly.InterfaceWatchers | src/config/mod.rs:145-204 | an interface missing from the table is an error; otherwise at least one watcher, all with the live snapshot and distinct tokens |
| Assembly.InterfacePlaceholder | src/config/mod.rs:197-203 | an interface with no bound record gets exactly one watcher, with empty token and no zones; otherwise every watcher has a zone |
| Assembly.InterfaceTokens | src/config/mod.rs:160-192 | a bound interface's watcher tokens are exactly the tokens declared for its records' zones |
| Assembly.InterfaceWatchable | src/config/mod.rs:173-174 | every assembled record has an address type, as a pass requires |
| Assembly.AllWatchers | src/config/mod.rs:144-205 | succeeds exactly when every interface's watchers assemble |
| Assembly.AllWatchersMembers | src/config/mod.rs:144-205 | the result holds exactly the watchers of the interfaces |
| Assembly.Assemble | src/config/mod.rs:105-212 | on success the configuration and interface table are kept and every referenced zone resolved |
| Assembly.ResolvedCovers | src/config/mod.rs:114-141 | the resolved zones are exactly those referenced or declared, with no records yet |
| Assembly.AssembleConsults | src/config/mod.rs:105-141 | assembly depends on the zone directory only through the declared zones without an id |
| Assembly.UndefinedZoneFails | src/config/mod.rs:128-131 | a record in an undeclared zone fails assembly |
| Assembly.MissingInterfaceFails | src/config/mod.rs:148-151 | a configured interface missing from the table fails assembly |
| Assembly.AssembledWatchers | src/config/mod.rs:144-205 | every watcher belongs to a configured interface with its live snapshot and is ready for a pass; every configured interface has a watcher |
| SyncCommand.NarrowZone | src/command/sync.rs:96-101 | a narrowed zone keeps its id and name and exactly the records of the name |
| SyncCommand.NarrowZones | src/command/sync.rs:95-106 | no remaining zone is empty, and every remaining record has the name |
| SyncCommand.NarrowZonesMembers | src/command/sync.rs:96-105 | the zones kept are exactly the narrowed zones that still hold a record |
| SyncCommand.NarrowZonesConcat | src/command/sync.rs:96-106 | narrowing distributes over concatenation, so zone order is kept |
| SyncCommand.NarrowZonesSingleton | src/command/sync.rs:102-104 | a zone is kept exactly when one of its records has the name |
| SyncCommand.NarrowZoneConcat | src/command/sync.rs:97-101 | record order within a zone is kept |
| SyncCommand.ShouldWatch | src/command/sync.rs:82-112 | another interface's watcher is not selected and untouched; without a record filter the watcher is unchanged, and it is selected when the interface filter is absent or names its interface; with one, it keeps only records of the name in non-empty zones and is selected exactly when a zone remains |
| SyncCommand.ShouldWatchKeepsWatchable | src/command/sync.rs:96-106 | filtering keeps a watcher ready for a pass |
| SyncCommand.Step | src/command/sync.rs:35-42 | a watcher the filter skips is not polled and sends nothing; a selected watcher is polled, after narrowing, with its own token's client |
| SyncCommand.RunSteps | src/command/sync.rs:34-44 | the run succeeds exactly when every step does, and then yields each step's watcher and sends every step's requests in order |
| SyncCommand.RunStepsStops | src/command/sync.rs:34-37 | a failing run stops at its first failing step: the steps before it passed, its error is the run's, only it and the steps before it sent requests, and later watchers are untouched |
| SyncCommand.SyncOnce | src/command/sync.rs:26-45 | no watchers means success with no request; the run succeeds exactly when every watcher's filter-and-poll does, and then sends the requests of every watcher in order |
| SyncCommand.SyncOnceStops | src/command/sync.rs:34-37 | the first failing poll is the run's error; only it and the watchers before it sent requests; the watchers after it are untouched |
| SyncCommand.NoMatchingInterfaceIsQuiet | src/command/sync.rs:35-41 | with an interface filter matching no watcher, nothing is sent or changed |
| ShowCommand.Classify | src/command/show.rs:70-99 | no upstream record is `Missing` with defaults; another type is `TypeMismatch` with it; same type is `OK` when content is equal and `OutOfSync` otherwise; a lookup error is `Error`; upstream proxy mode and TTL are reported when found |
| ShowCommand.Summary | src/command/show.rs:66-115 | `Disabled` exactly when there are no records |
| ShowCommand.Mark | src/command/show.rs:100-108 | an `OK` record keeps the status; any other record makes it `Failed` exactly when it is an error, `OutOfSync` otherwise |
| ShowCommand.Fold | src/command/show.rs:66-108 | the fold ends at its start value, `Failed` or `OutOfSync`, and at its start value when every record is `OK` |
| ShowCommand.LastDifference | src/command/show.rs:100-108 | the last record not `OK`, if any |
| ShowCommand.LastDifferenceDecides | src/command/show.rs:66-108 | the folded status is decided by the last record not `OK`: `Failed` for an error, `OutOfSync` otherwise, the start value when none |
| ShowCommand.SummaryMeaning | src/command/show.rs:66-115 | `Synced` exactly when there are records and all are `OK`; `Failed`/`OutOfSync` exactly when the last non-`OK` record is/is not an error |
| ShowCommand.Entries | src/command/show.rs:68-69 | the records of all zones, empty exactly when every zone is empty |
| ShowCommand.EntriesCount | src/command/show.rs:68-69 | one entry per record over all zones |
| ShowCommand.EntriesSingleton | src/command/show.rs:69 | the entries of one zone are its records in order, each with the zone's id |
| ShowCommand.EntriesConcat | src/command/show.rs:68 | the entries of consecutive zones are those of the first zones followed by those of the rest, so zone order is kept |
| ShowCommand.Inspect | src/command/show.rs:47-116 | one line per record in zone and record order, classified against the provider; `Disabled` exactly without records; `Synced` exactly when every line is `OK` |
| Scenarios.CreateThenQuiet | src/watcher.rs:41-67 | an unknown record is looked up, then created with the interface address; the next pass sends nothing |
| Scenarios.AdoptUpToDate | src/watcher.rs:41-61 | an up-to-date upstream record is adopted by the lookup, with no write |
| Scenarios.AddressChangeUpdates | src/watcher.rs:55-58 | an address change sends exactly one update with the new address |

## Left out

- HTTP transport, JSON and TLS are out: `Cloudflare::new`, request building in `zone_by_name`, `get`, `get_by_name`, `create` and `update`. Their answers are the `Api` and `ZoneDirectory` inputs. The failure of `Cloudflare::new` in `Watcher::new` is not modelled: client construction is assumed to succeed.
- `get` takes the last listed record (`records.pop()`). This is folded into the `Api.get` answer.
- Interface discovery (`ifcfg::IfCfg::get`, its panic) and `Platform::detect` need the OS and a subprocess. The raw address lists and model strings are inputs.
- Configuration file reading, TOML parsing and the serde plumbing are out. Only the decision logic of the custom deserialisers is modelled, on an abstract `Token`.
- The address text grammar of `std::net` is abstracted as `IpSyntax`.
- `DnsContent`'s serde wrapper (display to a string, parse from one) is covered by `DisplayContent`/`ParseContent`. The wrapper itself is left out.
- Daemon mode of `sync` is left out: thread spawning, sleeping and joining are concurrency and timing. With it goes `Interval::duration`, whose only user is the daemon's sleep; the default interval of 300 seconds is kept as the constant `DefaultInterval`.
- Printing is left out: `show` output, the `Display` of `DnsRecordType` and `Interval`, logging, CLI dispatch and `LogLevel`.
- SyncCommand.SyncOnce: every poll in one run sees the same interface table. The source reads the system table afresh in each poll (`src/watcher.rs:28`), so two watchers of one run may see different addresses; the model does not capture that change between polls.
- Hash-map and hash-set iteration order is left out. The model uses first-occurrence order, and its assembly properties do not depend on order.
- Watchers.Poll: the `try_into().unwrap()` on the record type (`src/watcher.rs:39`) is a precondition, `Watchable`: every watched record is `A` or `AAAA`. Assembly establishes it (`Assembly.InterfaceWatchable`).
- System.FirstOfFamily: the address `unwrap` and the family-mismatch panic of `extract_v4_address`/`extract_v6_address` are a precondition, `Readable`.
- Cloudflare.Unwrap: the `pop().unwrap()` on an empty error list of a failed response is a precondition.
- Watchers.PollTwiceIsQuiet: the cross-pass guarantee assumes a provider that stores what it is sent (`Faithful`). The source relies on the provider for this.
- Assembly.Assemble: the error reported when several zones or interfaces fail depends on hash order, so only failure itself is stated (`UndefinedZoneFails`, `MissingInterfaceFails`).
- Assembly.Synthesize: the source unwraps a record's address family and the interface's address, and panics when either is missing. The model reports these as the errors `UnsupportedType` and `NoAddress` instead; the same holds for Assembly.InterfaceWatchers, which calls it.
- ShowCommand.Classify: the error text of `Error(String)` is kept as the structured `ApiError`, not formatted.

=== FILE: assembly.dfy ===
/**
 * Watcher assembly from a configuration file (`TryFrom<ConfigFile> for Config`,
 * src/config/mod.rs): zone resolution, record synthesis and grouping by token.
 */
module Assembly {
  import opened Results
  import opened System
  import opened Cloudflare
  import opened Settings
  import opened FileConfig
  import opened Watchers
  import Seqs

  datatype ConfigError =
    | UndefinedZone(zone: string)
    | ZoneUnavailable(zone: string, cause: ApiError)
    | UnknownInterface(name: string)
    | UnsupportedType(record: string)
    | NoAddress(interface: string, record: string)

  datatype Config = Config(ifconfig: IfTable, file: ConfigFile, watchers: seq<Watcher>)

  /** Zone name to the token of its declaration and the resolved zone. */
  type Resolved = map<string, (string, Zone)>

  function RecordZones(records: seq<RecordConfig>): (names: seq<string>)
    ensures |names| == |records|
    ensures forall i | 0 <= i < |records| :: names[i] == records[i].zone
  {
    seq(|records|, i requires 0 <= i < |records| => records[i].zone)
  }

  function DeclaredZones(zones: seq<ZoneConfig>): (names: seq<string>)
    ensures |names| == |zones|
    ensures forall i | 0 <= i < |zones| :: names[i] == zones[i].name
  {
    seq(|zones|, i requires 0 <= i < |zones| => zones[i].name)
  }

  /**
   * The zone names to resolve: those referenced by records together with the declared ones,
   * each once. The source iterates a hash set; the model takes first occurrences in order.
   */
  function ReferencedZones(c: ConfigFile): (names: seq<string>)
    ensures forall n :: n in names <==>
      (exists i | 0 <= i < |c.records| :: c.records[i].zone == n) || (exists i | 0 <= i < |c.zones| :: c.zones[i].name == n)
    ensures forall i, j | 0 <= i < j < |names| :: names[i] != names[j]
  {
    var all := RecordZones(c.records) + DeclaredZones(c.zones);
    assert forall n :: n in all <==> n in RecordZones(c.records) || n in DeclaredZones(c.zones);
    Seqs.Distinct(all)
  }

  /** One zone: its declared id if there is one, otherwise a lookup by name with its token. */
  function ResolveZone(c: ConfigFile, directory: ZoneDirectory, name: string): (r: Result<(string, Zone), ConfigError>)
    ensures FindZone(c.zones, name).None? ==> r == Err(UndefinedZone(name))
    ensures r.Ok? ==> FindZone(c.zones, name).Some? && r.value.0 == FindZone(c.zones, name).value.token
    ensures r.Ok? ==> r.value.1.records == []
    ensures FindZone(c.zones, name).Some? && FindZone(c.zones, name).value.id.Some? ==>
      r == Ok((FindZone(c.zones, name).value.token, Zone(FindZone(c.zones, name).value.id.value, name, [])))
  {
    match FindZone(c.zones, name)
    case None => Err(UndefinedZone(name))
    case Some(zc) =>
      if zc.id.Some? then Ok((zc.token, Zone(zc.id.value, name, [])))
      else
        match GetZone(directory, name, zc.token)
        case Err(e) => Err(ZoneUnavailable(name, e))
        case Ok(zone) => Ok((zc.token, zone))
  }

  /** Whether resolving `name` asks the provider: only a declared zone without an id does. */
  predicate Fetches(c: ConfigFile, name: string) {
    FindZone(c.zones, name).Some? && FindZone(c.zones, name).value.id.None?
  }

  /** The resolved zones, or the first error. */
  function ResolveZones(c: ConfigFile, directory: ZoneDirectory, names: seq<string>): (r: Result<Resolved, ConfigError>)
    ensures r.Ok? <==> forall i | 0 <= i < |names| :: ResolveZone(c, directory, names[i]).Ok?
    ensures r.Ok? ==> r.value.Keys == set n | n in names
    ensures r.Err? ==> exists i | 0 <= i < |names| :: ResolveZone(c, directory, names[i]) == Err(r.error)
  {
    if |names| == 0 then Ok(map[])
    else
      var name := names[0];
      match ResolveZone(c, directory, name)
      case Err(e) => Err(e)
      case Ok(entry) =>
        var rest := ResolveZones(c, directory, names[1..]);
        assert forall i | 1 <= i < |names| :: names[i] == names[1..][i - 1];
        assert forall n :: n in names <==> n == name || n in names[1..];
        match rest
        case Err(e) => Err(e)
        case Ok(zones) => Ok(zones[name := entry])
  }

  /** Each resolved name maps to its own resolution. */
  lemma {:induction false} ResolveZonesValues(c: ConfigFile, directory: ZoneDirectory, names: seq<string>)
    requires ResolveZones(c, directory, names).Ok?
    ensures var resolved := ResolveZones(c, directory, names).value;
      forall n | n in resolved :: ResolveZone(c, directory, n).Ok? && resolved[n] == ResolveZone(c, directory, n).value
  {
    if |names| > 0 {
      ResolveZonesValues(c, directory, names[1..]);
    }
  }

  /**
   * Resolution asks the provider only about declared zones without an id: two directories
   * that agree on those give the same outcome, whatever they answer for any other zone.
   */
  lemma {:induction false} ResolveZonesConsults(c: ConfigFile, d1: ZoneDirectory, d2: ZoneDirectory, names: seq<string>)
    requires forall n | n in names && Fetches(c, n) ::
      d1(FindZone(c.zones, n).value.token, n) == d2(FindZone(c.zones, n).value.token, n)
    ensures ResolveZones(c, d1, names) == ResolveZones(c, d2, names)
  {
    if |names| > 0 {
      assert ResolveZone(c, d1, names[0]) == ResolveZone(c, d2, names[0]);
      ResolveZonesConsults(c, d1, d2, names[1..]);
    }
  }

  /** A record synthesised for a configured binding: unresolved, pointing at `addr`. */
  predicate Synthesised(r: DnsRecord, zone: Zone, rc: RecordConfig, info: InterfaceInfo) {
    && r.id.None?
    && r.zoneId == zone.id
    && r.name == rc.name
    && r.ty == rc.ty
    && r.proxied == rc.proxied
    && r.ttl == rc.ttl
    && IsAddressType(r.ty)
    && Desired(r, info).Some?
    && r.content == ContentOf(Desired(r, info).value)
  }

  /**
   * The records of one zone for one interface. The source unwraps the record type's family
   * and the interface address; either failing is reported here as an error where the source
   * panics.
   */
  function Synthesize(zone: Zone, rcs: seq<RecordConfig>, iface: Interface): (r: Result<seq<DnsRecord>, ConfigError>)
    ensures r.Ok? <==> forall k | 0 <= k < |rcs| :: IsAddressType(rcs[k].ty) && iface.info.Address(FamilyOfType(rcs[k].ty).value).Some?
    ensures r.Ok? ==> |r.value| == |rcs| && forall k | 0 <= k < |rcs| :: Synthesised(r.value[k], zone, rcs[k], iface.info)
    ensures r.Err? ==> exists k | 0 <= k < |rcs| ::
      || (!IsAddressType(rcs[k].ty) && r.error == UnsupportedType(rcs[k].name))
      || (IsAddressType(rcs[k].ty) && r.error == NoAddress(iface.name, rcs[k].name))
  {
    if |rcs| == 0 then Ok([])
    else
      var rc := rcs[0];
      assert forall k | 1 <= k < |rcs| :: rcs[k] == rcs[1..][k - 1];
      match FamilyOfType(rc.ty)
      case Err(_) => Err(UnsupportedType(rc.name))
      case Ok(family) =>
        match iface.Address(family)
        case None => Err(NoAddress(iface.name, rc.name))
        case Some(addr) =>
          var record := DnsRecord(Option.None, zone.id, rc.name, rc.ty, ContentOf(addr), rc.proxied, rc.ttl);
          match Synthesize(zone, rcs[1..], iface)
          case Err(e) => Err(e)
          case Ok(rest) => Ok([record] + rest)
  }

  /** The configured records bound to interface `name`, in order. */
  function BoundTo(c: ConfigFile, name: string): seq<RecordConfig> {
    Seqs.Filter(c.records, (r: RecordConfig) => r.interface == name)
  }

  /** The records among `rcs` that belong to zone `name`, in order. */
  function InZone(rcs: seq<RecordConfig>, name: string): seq<RecordConfig> {
    Seqs.Filter(rcs, (r: RecordConfig) => r.zone == name)
  }

  /** Each zone name paired with its token and its zone holding the synthesised records. */
  function BindZones(resolved: Resolved, iface: Interface, rcs: seq<RecordConfig>, names: seq<string>)
    : (r: Result<seq<(string, Zone)>, ConfigError>)
    requires forall n | n in names :: n in resolved
    ensures r.Ok? ==> |r.value| == |names|
    ensures r.Ok? ==> forall k | 0 <= k < |names| ::
      var (token, zone) := resolved[names[k]];
      && r.value[k].0 == token
      && Synthesize(zone, InZone(rcs, names[k]), iface).Ok?
      && r.value[k].1 == zone.(records := zone.records + Synthesize(zone, InZone(rcs, names[k]), iface).value)
    ensures r.Err? ==> exists k | 0 <= k < |names| ::
      Synthesize(resolved[names[k]].1, InZone(rcs, names[k]), iface) == Err(r.error)
  {
    if |names| == 0 then Ok([])
    else
      var (token, zone) := resolved[names[0]];
      assert forall k | 1 <= k < |names| :: names[k] == names[1..][k - 1];
      match Synthesize(zone, InZone(rcs, names[0]), iface)
      case Err(e) => Err(e)
      case Ok(records) =>
        match BindZones(resolved, iface, rcs, names[1..])
        case Err(e) => Err(e)
        case Ok(rest) => Ok([(token, zone.(records := zone.records + records))] + rest)
  }

  /** The zones of `pairs` whose token is `token`, in order. */
  function ZonesFor(pairs: seq<(string, Zone)>, token: string): seq<Zone> {
    if |pairs| == 0 then []
    else
      var last := pairs[|pairs| - 1];
      ZonesFor(pairs[..|pairs| - 1], token) + (if last.0 == token then [last.1] else [])
  }

  function IndexOfToken(ws: seq<Watcher>, token: string): (r: Option<nat>)
    ensures r.Some? ==> r.value < |ws| && ws[r.value].token == token
    ensures r.None? ==> forall i | 0 <= i < |ws| :: ws[i].token != token
  {
    if |ws| == 0 then Option.None
    else if ws[|ws| - 1].token == token then Some(|ws| - 1)
    else IndexOfToken(ws[..|ws| - 1], token)
  }

  /** The tokens of a sequence of watchers. */
  function Tokens(ws: seq<Watcher>): set<string> {
    set w | w in ws :: w.token
  }

  /** The tokens of a sequence of token/zone pairs. */
  function PairTokens(pairs: seq<(string, Zone)>): set<string> {
    set p | p in pairs :: p.0
  }

  /**
   * The watchers of one interface, one per distinct token: a zone joins the watcher of its
   * token, or starts a new one.
   */
  function Group(pairs: seq<(string, Zone)>, iface: Interface): (ws: seq<Watcher>)
    ensures forall i | 0 <= i < |ws| :: ws[i].interface == iface
    ensures forall i, j | 0 <= i < j < |ws| :: ws[i].token != ws[j].token
  {
    if |pairs| == 0 then []
    else
      var (token, zone) := pairs[|pairs| - 1];
      var ws := Group(pairs[..|pairs| - 1], iface);
      match IndexOfToken(ws, token)
      case Some(i) => ws[i := ws[i].(watching := ws[i].watching + [zone])]
      case None => ws + [Watcher(token, iface, [zone])]
  }

  /** Every watcher holds, in order, exactly the zones of its token. */
  lemma {:induction false} GroupHoldsZonesOfToken(pairs: seq<(string, Zone)>, iface: Interface)
    ensures var ws := Group(pairs, iface);
      forall i | 0 <= i < |ws| :: ws[i].watching == ZonesFor(pairs, ws[i].token)
  {
    if |pairs| > 0 {
      var init := pairs[..|pairs| - 1];
      var (token, zone) := pairs[|pairs| - 1];
      var ws := Group(init, iface);
      GroupHoldsZonesOfToken(init, iface);
      match IndexOfToken(ws, token)
      case Some(i) =>
      case None =>
        assert forall i | 0 <= i < |Group(init, iface)| :: Group(init, iface)[i].token != token;
        ZonesForAbsentToken(init, iface, token);
    }
  }

  /** A token no watcher has belongs to no zone. */
  lemma {:induction false} ZonesForAbsentToken(pairs: seq<(string, Zone)>, iface: Interface, token: string)
    requires forall i | 0 <= i < |Group(pairs, iface)| :: Group(pairs, iface)[i].token != token
    ensures ZonesFor(pairs, token) == []
  {
    if |pairs| > 0 {
      var init := pairs[..|pairs| - 1];
      var ws := Group(init, iface);
      var last := pairs[|pairs| - 1];
      match IndexOfToken(ws, last.0)
      case Some(i) =>
        forall j | 0 <= j < |ws| ensures ws[j].token != token {
          assert Group(pairs, iface)[j].token == ws[j].token;
        }
        ZonesForAbsentToken(init, iface, token);
      case None =>
        assert Group(pairs, iface)[|ws|].token == last.0;
        forall i | 0 <= i < |ws| ensures ws[i].token != token {
          assert Group(pairs, iface)[i].token == ws[i].token;
        }
        ZonesForAbsentToken(init, iface, token);
    }
  }

  /** Replacing a watcher by one with the same token keeps the set of tokens. */
  lemma TokensKeptByUpdate(ws: seq<Watcher>, i: int, w: Watcher)
    requires 0 <= i < |ws| && w.token == ws[i].token
    ensures Tokens(ws[i := w]) == Tokens(ws)
  {
    var ws' := ws[i := w];
    var before := Tokens(ws);
    var after := Tokens(ws');
    forall t | t in before ensures t in after {
      var v :| v in ws && v.token == t;
      var j :| 0 <= j < |ws| && ws[j] == v;
      assert ws'[j] in ws';
    }
    forall t | t in after ensures t in before {
      var v :| v in ws' && v.token == t;
      var j :| 0 <= j < |ws'| && ws'[j] == v;
      assert ws[j] in ws;
    }
  }

  /** The watchers' tokens are exactly the tokens of the zones. */
  lemma {:induction false} GroupTokens(pairs: seq<(string, Zone)>, iface: Interface)
    ensures Tokens(Group(pairs, iface)) == PairTokens(pairs)
  {
    if |pairs| > 0 {
      var init := pairs[..|pairs| - 1];
      var last := pairs[|pairs| - 1];
      var ws := Group(init, iface);
      GroupTokens(init, iface);
      assert pairs == init + [last];
      assert PairTokens(pairs) == PairTokens(init) + {last.0};
      match IndexOfToken(ws, last.0)
      case Some(i) =>
        TokensKeptByUpdate(ws, i, ws[i].(watching := ws[i].watching + [last.1]));
      case None =>
        var ws' := ws + [Watcher(last.0, iface, [last.1])];
        assert Tokens(ws') == Tokens(ws) + {last.0};
    }
  }


  /** The configured interface with its snapshot taken from the interface table. */
  function Live(iface: Interface, table: IfTable): Interface
    requires iface.name in table
  {
    iface.(info := table[iface.name])
  }

  /** Every record refers to a resolved zone, which is what makes the zone lookup total. */
  predicate Covers(resolved: Resolved, c: ConfigFile) {
    forall k | 0 <= k < |c.records| :: c.records[k].zone in resolved
  }

  /** The distinct zones of the records bound to interface `name`, in first-occurrence order. */
  function BoundZones(c: ConfigFile, name: string): seq<string> {
    Seqs.Distinct(RecordZones(BoundTo(c, name)))
  }

  /**
   * The watchers of one configured interface: one per distinct token of its zones, or a
   * single placeholder with an empty token and no zones when no record is bound to it.
   */
  function InterfaceWatchers(c: ConfigFile, resolved: Resolved, table: IfTable, iface: Interface)
    : (r: Result<seq<Watcher>, ConfigError>)
    requires Covers(resolved, c)
    ensures iface.name !in table ==> r == Err(UnknownInterface(iface.name))
    ensures r.Ok? ==> iface.name in table && |r.value| > 0
    ensures r.Ok? ==> forall i | 0 <= i < |r.value| :: r.value[i].interface == Live(iface, table)
    ensures r.Ok? ==> forall i, j | 0 <= i < j < |r.value| :: r.value[i].token != r.value[j].token
  {
    if iface.name !in table then Err(UnknownInterface(iface.name))
    else
      var live := Live(iface, table);
      BoundZonesResolved(c, resolved, iface.name);
      match BindZones(resolved, live, BoundTo(c, iface.name), BoundZones(c, iface.name))
      case Err(e) => Err(e)
      case Ok(pairs) =>
        var ws := Group(pairs, live);
        if |ws| == 0 then Ok([Watcher("", live, [])]) else Ok(ws)
  }

  lemma BoundZonesResolved(c: ConfigFile, resolved: Resolved, name: string)
    requires Covers(resolved, c)
    ensures forall n | n in BoundZones(c, name) :: n in resolved
  {
    forall n | n in BoundZones(c, name) ensures n in resolved {
      var k :| 0 <= k < |RecordZones(BoundTo(c, name))| && RecordZones(BoundTo(c, name))[k] == n;
      assert BoundTo(c, name)[k] in c.records;
    }
  }

  /** A zone is held for a token exactly when it is paired with that token. */
  lemma {:induction false} ZonesForMembers(pairs: seq<(string, Zone)>, token: string)
    ensures forall z :: z in ZonesFor(pairs, token) <==> (token, z) in pairs
  {
    if |pairs| > 0 {
      var init := pairs[..|pairs| - 1];
      ZonesForMembers(init, token);
      assert pairs == init + [pairs[|pairs| - 1]];
    }
  }

  /** Every grouped watcher watches at least one zone, all of them paired with its token. */
  lemma GroupWatchesPairedZones(pairs: seq<(string, Zone)>, iface: Interface)
    ensures forall w | w in Group(pairs, iface) :: |w.watching| > 0 && forall z | z in w.watching :: (w.token, z) in pairs
  {
    var ws := Group(pairs, iface);
    GroupHoldsZonesOfToken(pairs, iface);
    GroupTokens(pairs, iface);
    forall w | w in ws ensures |w.watching| > 0 && forall z | z in w.watching :: (w.token, z) in pairs {
      ZonesForMembers(pairs, w.token);
      assert w.token in Tokens(ws);
      var p :| p in pairs && p.0 == w.token;
      assert p.1 in w.watching;
    }
  }

  /** A zone name is bound to an interface exactly when some record of that interface is in it. */
  lemma BoundZonesMembers(c: ConfigFile, name: string)
    ensures forall n :: n in BoundZones(c, name) <==> exists k | 0 <= k < |c.records| :: c.records[k].interface == name && c.records[k].zone == n
  {
    var bound := BoundTo(c, name);
    forall n ensures n in BoundZones(c, name) <==> exists k | 0 <= k < |c.records| :: c.records[k].interface == name && c.records[k].zone == n {
      if n in BoundZones(c, name) {
        var j :| 0 <= j < |bound| && RecordZones(bound)[j] == n;
        assert bound[j] in c.records;
      }
      if exists k | 0 <= k < |c.records| :: c.records[k].interface == name && c.records[k].zone == n {
        var k :| 0 <= k < |c.records| && c.records[k].interface == name && c.records[k].zone == n;
        assert c.records[k] in bound;
        var j :| 0 <= j < |bound| && bound[j] == c.records[k];
        assert RecordZones(bound)[j] == n;
      }
    }
  }

  /**
   * An interface with no bound record gets exactly the placeholder watcher; otherwise every
   * watcher it gets watches at least one zone.
   */
  lemma InterfacePlaceholder(c: ConfigFile, resolved: Resolved, table: IfTable, iface: Interface)
    requires Covers(resolved, c)
    requires InterfaceWatchers(c, resolved, table, iface).Ok?
    ensures var ws := InterfaceWatchers(c, resolved, table, iface).value;
      && ((forall k | 0 <= k < |c.records| :: c.records[k].interface != iface.name) ==> ws == [Watcher("", Live(iface, table), [])])
      && ((exists k | 0 <= k < |c.records| :: c.records[k].interface == iface.name) ==> forall w | w in ws :: |w.watching| > 0)
  {
    var live := Live(iface, table);
    BoundZonesResolved(c, resolved, iface.name);
    BoundZonesMembers(c, iface.name);
    var names := BoundZones(c, iface.name);
    var pairs := BindZones(resolved, live, BoundTo(c, iface.name), names).value;
    GroupWatchesPairedZones(pairs, live);
    GroupTokens(pairs, live);
    if exists k | 0 <= k < |c.records| :: c.records[k].interface == iface.name {
      var k :| 0 <= k < |c.records| && c.records[k].interface == iface.name;
      assert c.records[k].zone in names;
      assert pairs[0].0 in PairTokens(pairs);
    }
  }

  /** The tokens of bound zones are those declared for the zones they hold. */
  lemma BindZonesTokens(resolved: Resolved, iface: Interface, rcs: seq<RecordConfig>, names: seq<string>)
    requires forall n | n in names :: n in resolved
    requires BindZones(resolved, iface, rcs, names).Ok?
    ensures PairTokens(BindZones(resolved, iface, rcs, names).value) == set n | n in names :: resolved[n].0
  {
    var pairs := BindZones(resolved, iface, rcs, names).value;
    forall t | t in PairTokens(pairs) ensures t in set n | n in names :: resolved[n].0 {
      var p :| p in pairs && p.0 == t;
      var i :| 0 <= i < |pairs| && pairs[i] == p;
      assert names[i] in names;
    }
    forall t | t in (set n | n in names :: resolved[n].0) ensures t in PairTokens(pairs) {
      var n :| n in names && resolved[n].0 == t;
      var i :| 0 <= i < |names| && names[i] == n;
      assert pairs[i] in pairs;
    }
  }

  /** The tokens of the bound zones, seen from the records that bind them. */
  lemma BoundZoneTokens(c: ConfigFile, resolved: Resolved, name: string)
    requires Covers(resolved, c)
    ensures forall n | n in BoundZones(c, name) :: n in resolved
    ensures (set n | n in BoundZones(c, name) :: resolved[n].0)
      == (set k | 0 <= k < |c.records| && c.records[k].interface == name :: resolved[c.records[k].zone].0)
  {
    BoundZonesResolved(c, resolved, name);
    BoundZonesMembers(c, name);
    var names := BoundZones(c, name);
    var byName := set n | n in names :: resolved[n].0;
    var byRecord := set k | 0 <= k < |c.records| && c.records[k].interface == name :: resolved[c.records[k].zone].0;
    forall t | t in byName ensures t in byRecord {
      var n :| n in names && resolved[n].0 == t;
      var k :| 0 <= k < |c.records| && c.records[k].interface == name && c.records[k].zone == n;
    }
    forall t | t in byRecord ensures t in byName {
      var k :| 0 <= k < |c.records| && c.records[k].interface == name && resolved[c.records[k].zone].0 == t;
      assert c.records[k].zone in names;
    }
  }

  /**
   * The tokens of a bound interface's watchers are exactly the tokens declared for the zones
   * of its records.
   */
  lemma InterfaceTokens(c: ConfigFile, resolved: Resolved, table: IfTable, iface: Interface)
    requires Covers(resolved, c)
    requires InterfaceWatchers(c, resolved, table, iface).Ok?
    requires exists k | 0 <= k < |c.records| :: c.records[k].interface == iface.name
    ensures Tokens(InterfaceWatchers(c, resolved, table, iface).value)
      == (set k | 0 <= k < |c.records| && c.records[k].interface == iface.name :: resolved[c.records[k].zone].0)
  {
    var live := Live(iface, table);
    BoundZoneTokens(c, resolved, iface.name);
    BoundZonesMembers(c, iface.name);
    var names := BoundZones(c, iface.name);
    var pairs := BindZones(resolved, live, BoundTo(c, iface.name), names).value;
    GroupTokens(pairs, live);
    BindZonesTokens(resolved, live, BoundTo(c, iface.name), names);
    var k0 :| 0 <= k0 < |c.records| && c.records[k0].interface == iface.name;
    assert c.records[k0].zone in names;
    assert pairs[0].0 in PairTokens(pairs);
    assert InterfaceWatchers(c, resolved, table, iface).value == Group(pairs, live);
  }

  /** Resolved zones carry no records yet: the configured ones are added during assembly. */
  predicate Unpopulated(resolved: Resolved) {
    forall n | n in resolved :: resolved[n].1.records == []
  }

  /** Every zone bound from an unpopulated resolution holds only records of address types. */
  lemma BoundZonesWatchable(resolved: Resolved, iface: Interface, rcs: seq<RecordConfig>, names: seq<string>)
    requires forall n | n in names :: n in resolved
    requires Unpopulated(resolved)
    requires BindZones(resolved, iface, rcs, names).Ok?
    ensures forall p | p in BindZones(resolved, iface, rcs, names).value :: Watchable([p.1])
  {
    var pairs := BindZones(resolved, iface, rcs, names).value;
    forall p | p in pairs ensures Watchable([p.1]) {
      var i :| 0 <= i < |pairs| && pairs[i] == p;
      var zone := resolved[names[i]].1;
      var records := Synthesize(zone, InZone(rcs, names[i]), iface).value;
      assert p.1.records == records;
      forall j | 0 <= j < |records| ensures IsAddressType(records[j].ty) {
        assert Synthesised(records[j], zone, InZone(rcs, names[i])[j], iface.info);
      }
    }
  }

  /** Assembled watchers satisfy the precondition of a pass: every record has an address type. */
  lemma InterfaceWatchable(c: ConfigFile, resolved: Resolved, table: IfTable, iface: Interface)
    requires Covers(resolved, c) && Unpopulated(resolved)
    requires InterfaceWatchers(c, resolved, table, iface).Ok?
    ensures forall w | w in InterfaceWatchers(c, resolved, table, iface).value :: Watchable(w.watching)
  {
    var live := Live(iface, table);
    BoundZonesResolved(c, resolved, iface.name);
    var names := BoundZones(c, iface.name);
    var pairs := BindZones(resolved, live, BoundTo(c, iface.name), names).value;
    BoundZonesWatchable(resolved, live, BoundTo(c, iface.name), names);
    GroupWatchesPairedZones(pairs, live);
    forall w | w in Group(pairs, live) ensures Watchable(w.watching) {
      forall i, j | 0 <= i < |w.watching| && 0 <= j < |w.watching[i].records|
        ensures IsAddressType(w.watching[i].records[j].ty)
      {
        assert (w.token, w.watching[i]) in pairs;
        assert Watchable([w.watching[i]]);
        assert [w.watching[i]][0] == w.watching[i];
      }
    }
  }

  /** The watchers of the interfaces in order; the first failing interface fails the whole. */
  function AllWatchers(c: ConfigFile, resolved: Resolved, table: IfTable, ifaces: seq<Interface>)
    : (r: Result<seq<Watcher>, ConfigError>)
    requires Covers(resolved, c)
    ensures r.Ok? <==> forall i | 0 <= i < |ifaces| :: InterfaceWatchers(c, resolved, table, ifaces[i]).Ok?
  {
    if |ifaces| == 0 then Ok([])
    else
      var init := ifaces[..|ifaces| - 1];
      var last := ifaces[|ifaces| - 1];
      assert forall i | 0 <= i < |init| :: init[i] == ifaces[i];
      match AllWatchers(c, resolved, table, init)
      case Err(e) => Err(e)
      case Ok(ws) =>
        match InterfaceWatchers(c, resolved, table, last)
        case Err(e) => Err(e)
        case Ok(more) => Ok(ws + more)
  }

  /** A configured interface missing from the interface table fails assembly. */
  lemma UnknownInterfaceFails(c: ConfigFile, resolved: Resolved, table: IfTable, ifaces: seq<Interface>, i: nat)
    requires Covers(resolved, c)
    requires i < |ifaces| && ifaces[i].name !in table
    ensures AllWatchers(c, resolved, table, ifaces).Err?
  {
    assert InterfaceWatchers(c, resolved, table, ifaces[i]).Err?;
  }

  /** The assembled watchers are exactly those of the interfaces, each found in the other. */
  lemma {:induction false} AllWatchersMembers(c: ConfigFile, resolved: Resolved, table: IfTable, ifaces: seq<Interface>)
    requires Covers(resolved, c)
    requires AllWatchers(c, resolved, table, ifaces).Ok?
    ensures forall w | w in AllWatchers(c, resolved, table, ifaces).value :: exists i | 0 <= i < |ifaces| ::
      ifaces[i].name in table && w in InterfaceWatchers(c, resolved, table, ifaces[i]).value
    ensures forall i | 0 <= i < |ifaces| ::
      forall w | w in InterfaceWatchers(c, resolved, table, ifaces[i]).value :: w in AllWatchers(c, resolved, table, ifaces).value
  {
    if |ifaces| > 0 {
      var init := ifaces[..|ifaces| - 1];
      var last := ifaces[|ifaces| - 1];
      assert forall i | 0 <= i < |init| :: init[i] == ifaces[i];
      AllWatchersMembers(c, resolved, table, init);
      var ws := AllWatchers(c, resolved, table, init).value;
      var more := InterfaceWatchers(c, resolved, table, last).value;
      assert AllWatchers(c, resolved, table, ifaces).value == ws + more;
    }
  }

  /**
   * `TryFrom<ConfigFile> for Config`: resolves every referenced zone, then assembles the
   * watchers of each configured interface in order.
   */
  function Assemble(c: ConfigFile, table: IfTable, directory: ZoneDirectory): (r: Result<Config, ConfigError>)
    ensures r.Ok? ==> r.value.file == c && r.value.ifconfig == table
    ensures r.Ok? ==> ResolveZones(c, directory, ReferencedZones(c)).Ok?
  {
    match ResolveZones(c, directory, ReferencedZones(c))
    case Err(e) => Err(e)
    case Ok(resolved) =>
      ResolvedCovers(c, directory);
      match AllWatchers(c, resolved, table, c.interfaces)
      case Err(e) => Err(e)
      case Ok(ws) => Ok(Config(table, c, ws))
  }

  /**
   * The zones resolved are exactly those referenced by a record or declared, none holding
   * records yet.
   */
  lemma ResolvedCovers(c: ConfigFile, directory: ZoneDirectory)
    requires ResolveZones(c, directory, ReferencedZones(c)).Ok?
    ensures var resolved := ResolveZones(c, directory, ReferencedZones(c)).value;
      && Covers(resolved, c)
      && Unpopulated(resolved)
      && forall n :: n in resolved <==>
        (exists k | 0 <= k < |c.records| :: c.records[k].zone == n) || (exists k | 0 <= k < |c.zones| :: c.zones[k].name == n)
  {
    ResolveZonesValues(c, directory, ReferencedZones(c));
  }

  /**
   * Assembly consults the provider's zone directory only for declared zones without an id:
   * a configuration whose zones all carry ids assembles the same with any directory.
   */
  lemma AssembleConsults(c: ConfigFile, table: IfTable, d1: ZoneDirectory, d2: ZoneDirectory)
    requires forall n | n in ReferencedZones(c) && Fetches(c, n) ::
      d1(FindZone(c.zones, n).value.token, n) == d2(FindZone(c.zones, n).value.token, n)
    ensures Assemble(c, table, d1) == Assemble(c, table, d2)
  {
    ResolveZonesConsults(c, d1, d2, ReferencedZones(c));
  }

  /** A record referring to an undeclared zone fails assembly. */
  lemma UndefinedZoneFails(c: ConfigFile, table: IfTable, directory: ZoneDirectory, k: nat)
    requires k < |c.records| && FindZone(c.zones, c.records[k].zone).None?
    ensures Assemble(c, table, directory).Err?
  {
    var names := ReferencedZones(c);
    assert c.records[k].zone in names;
    var i :| 0 <= i < |names| && names[i] == c.records[k].zone;
    assert ResolveZone(c, directory, names[i]).Err?;
  }

  /** A configured interface missing from the interface table fails assembly. */
  lemma MissingInterfaceFails(c: ConfigFile, table: IfTable, directory: ZoneDirectory, i: nat)
    requires i < |c.interfaces| && c.interfaces[i].name !in table
    ensures Assemble(c, table, directory).Err?
  {
    if ResolveZones(c, directory, ReferencedZones(c)).Ok? {
      var resolved := ResolveZones(c, directory, ReferencedZones(c)).value;
      ResolvedCovers(c, directory);
      UnknownInterfaceFails(c, resolved, table, c.interfaces, i);
    }
  }

  /**
   * Every assembled watcher belongs to a configured interface with its live snapshot and
   * satisfies the precondition of a pass, and every configured interface has a watcher.
   */
  lemma AssembledWatchers(c: ConfigFile, table: IfTable, directory: ZoneDirectory)
    requires Assemble(c, table, directory).Ok?
    ensures var ws := Assemble(c, table, directory).value.watchers;
      && (forall w | w in ws :: Watchable(w.watching))
      && (forall w | w in ws :: exists i | 0 <= i < |c.interfaces| ::
            c.interfaces[i].name in table && w.interface == Live(c.interfaces[i], table))
      && (forall i | 0 <= i < |c.interfaces| :: exists w | w in ws :: w.interface.name == c.interfaces[i].name)
  {
    var resolved := ResolveZones(c, directory, ReferencedZones(c)).value;
    ResolvedCovers(c, directory);
    var ws := Assemble(c, table, directory).value.watchers;
    assert ws == AllWatchers(c, resolved, table, c.interfaces).value;
    AllWatchersMembers(c, resolved, table, c.interfaces);
    forall w | w in ws ensures Watchable(w.watching) {
      var i :| 0 <= i < |c.interfaces| && c.interfaces[i].name in table
        && w in InterfaceWatchers(c, resolved, table, c.interfaces[i]).value;
      InterfaceWatchable(c, resolved, table, c.interfaces[i]);
    }
    forall i | 0 <= i < |c.interfaces| ensures exists w | w in ws :: w.interface.name == c.interfaces[i].name {
      var mine := InterfaceWatchers(c, resolved, table, c.interfaces[i]).value;
      assert mine[0] in mine;
    }
  }
}

=== FILE: cloudflare.dfy ===
/** The record data model and the id checks of the provider client (src/cloudflare.rs). */
module Cloudflare {
  import opened Results
  import opened System
  import Decimal

  /** A provider resource identifier; deserialisation refuses the empty string. */
  datatype Id = Id(text: string)

  /** The events a self-describing deserializer presents for one (possibly optional) value. */
  datatype Token = NoneToken | UnitToken | BoolToken(b: bool) | NumberToken(n: int) | StrToken(s: string) | SomeToken(inner: Token)

  datatype DeError = InvalidType | InvalidValue | Custom(message: string)

  const EmptyIdMessage := "invalid id string, cannot be empty"

  function DeserializeId(t: Token): (r: Result<Id, DeError>)
    ensures r.Ok? <==> t.StrToken? && t.s != ""
    ensures r.Ok? ==> r.value.text == t.s
    ensures t == StrToken("") ==> r == Err(Custom(EmptyIdMessage))
  {
    match t
    case StrToken(s) => if s == "" then Err(Custom(EmptyIdMessage)) else Ok(Id(s))
    case _ => Err(InvalidType)
  }

  /** A zone and the records watched in it; `records` is never part of the wire format. */
  datatype Zone = Zone(id: Id, name: string, records: seq<DnsRecord>)

  datatype DnsRecordType = A | AAAA | CNAME | Other

  const DefaultRecordType := DnsRecordType.A

  predicate IsAddressType(ty: DnsRecordType) {
    ty == DnsRecordType.A || ty == DnsRecordType.AAAA
  }

  /** `From<AddressFamily> for DnsRecordType`. */
  function TypeOfFamily(family: AddressFamily): (ty: DnsRecordType)
    ensures ty == DnsRecordType.A <==> family == IPv4
    ensures ty == DnsRecordType.AAAA <==> family == IPv6
    ensures ty == DnsRecordType.Other <==> family == NonIp
  {
    match family
    case IPv4 => DnsRecordType.A
    case IPv6 => DnsRecordType.AAAA
    case NonIp => DnsRecordType.Other
  }

  /** `TryInto<AddressFamily> for DnsRecordType`: defined on the address types only. */
  function FamilyOfType(ty: DnsRecordType): (r: Result<AddressFamily, ()>)
    ensures r.Ok? <==> IsAddressType(ty)
    ensures r.Ok? ==> r.value != NonIp && TypeOfFamily(r.value) == ty
  {
    match ty
    case A => Ok(IPv4)
    case AAAA => Ok(IPv6)
    case _ => Err(())
  }

  /** The two conversions are inverse on the IP families. */
  lemma FamilyRoundTrip(family: AddressFamily)
    requires family != NonIp
    ensures FamilyOfType(TypeOfFamily(family)) == Ok(family)
  {
  }

  type NonZeroU32 = x: int | 1 <= x < 0x1_0000_0000 witness 1

  /** A record TTL; an absent value means the provider's automatic TTL. */
  datatype Ttl = Ttl(value: Option<NonZeroU32>)

  /** The derived default: no explicit TTL. */
  const DefaultTtl := Ttl(Option.None)

  /** The number the provider reads as "automatic". */
  const AutomaticTtl: NonZeroU32 := 1

  /** `Serialize for Ttl`: the number sent to the provider. */
  function SerializeTtl(t: Ttl): (tok: Token)
    ensures tok.NumberToken? && 1 <= tok.n < 0x1_0000_0000
    ensures t.value.None? ==> tok.n == AutomaticTtl as int
    ensures t.value.Some? ==> tok.n == t.value.value as int
  {
    NumberToken(if t.value.Some? then t.value.value as int else AutomaticTtl as int)
  }

  /** `Display for Ttl`: the decimal text of the number `SerializeTtl` sends. */
  function DisplayTtl(t: Ttl): (s: string)
    ensures forall i | 0 <= i < |s| :: Decimal.IsDigit(s[i])
    ensures Decimal.Read(s) == SerializeTtl(t).n
    ensures t.value.None? ==> s == "1"
    ensures s == Decimal.Show(SerializeTtl(t).n)
  {
    var n := if t.value.Some? then t.value.value as nat else AutomaticTtl as nat;
    Decimal.ReadShow(n);
    Decimal.Show(n)
  }

  /** The derived deserialiser of `Ttl`: an optional non-zero `u32`. */
  function DeserializeTtl(tok: Token): (r: Result<Ttl, DeError>)
    ensures tok.NoneToken? || tok.UnitToken? ==> r == Ok(Ttl(Option.None))
    ensures r.Ok? && r.value.value.Some? ==> tok == SomeToken(NumberToken(r.value.value.value as int))
    ensures tok.SomeToken? && tok.inner.NumberToken? ==> (r.Ok? <==> 1 <= tok.inner.n < 0x1_0000_0000)
    ensures tok.SomeToken? && tok.inner.NumberToken? && r.Ok? ==> r.value.value == Some(tok.inner.n as NonZeroU32)
    ensures r.Ok? ==> tok.NoneToken? || tok.UnitToken? || (tok.SomeToken? && tok.inner.NumberToken?)
  {
    match tok
    case NoneToken => Ok(Ttl(Option.None))
    case UnitToken => Ok(Ttl(Option.None))
    case SomeToken(NumberToken(n)) =>
      if 1 <= n < 0x1_0000_0000 then Ok(Ttl(Some(n as NonZeroU32))) else Err(InvalidValue)
    case _ => Err(InvalidType)
  }

  /**
   * A present TTL survives serialisation; an absent one comes back as an explicit `1`, which
   * the provider reads the same way.
   */
  lemma TtlRoundTrip(t: Ttl)
    ensures t.value.Some? ==> DeserializeTtl(SomeToken(SerializeTtl(t))) == Ok(t)
    ensures t.value.None? ==> DeserializeTtl(SomeToken(SerializeTtl(t))) == Ok(Ttl(Some(AutomaticTtl)))
  {
  }

  /**
   * A record setting that omits its fields is an `A` record sent with the automatic TTL and
   * not proxied.
   */
  lemma OmittedFieldsDefaults()
    ensures IsAddressType(DefaultRecordType) && FamilyOfType(DefaultRecordType) == Ok(IPv4)
    ensures SerializeTtl(DefaultTtl) == NumberToken(AutomaticTtl as int)
    ensures SerializeProxyMode(DefaultProxyMode) == BoolToken(false)
  {
  }

  /** Whether the provider proxies traffic for a record. */
  datatype ProxyMode = Proxied | None

  const DefaultProxyMode := ProxyMode.None

  function AsBool(p: ProxyMode): bool {
    p == Proxied
  }

  /** `Serialize for ProxyMode`: the boolean `AsBool` gives. */
  function SerializeProxyMode(p: ProxyMode): (tok: Token)
    ensures tok == BoolToken(AsBool(p))
  {
    match p
    case Proxied => BoolToken(true)
    case None => BoolToken(false)
  }

  /** `Deserialize for ProxyMode`: `true` proxies; `false`, null and unit do not. */
  function DeserializeProxyMode(tok: Token): (r: Result<ProxyMode, DeError>)
    ensures r == Ok(Proxied) <==> tok == BoolToken(true) || tok == SomeToken(BoolToken(true))
    ensures r == Ok(ProxyMode.None) <==>
      || tok == BoolToken(false) || tok == SomeToken(BoolToken(false))
      || tok == NoneToken || tok == UnitToken
  {
    match tok
    case BoolToken(b) => Ok(if b then Proxied else ProxyMode.None)
    case UnitToken => Ok(ProxyMode.None)
    case NoneToken => Ok(ProxyMode.None)
    case SomeToken(BoolToken(b)) => Ok(if b then Proxied else ProxyMode.None)
    case _ => Err(InvalidType)
  }

  /** Serialising then deserialising a proxy mode, bare or wrapped as present, gives it back. */
  lemma ProxyModeRoundTrip(p: ProxyMode)
    ensures DeserializeProxyMode(SerializeProxyMode(p)) == Ok(p)
    ensures DeserializeProxyMode(SomeToken(SerializeProxyMode(p))) == Ok(p)
  {
  }

  /** The value of a record: an address of either family, or any other text kept verbatim. */
  datatype DnsContent = A(v4: Ipv4) | AAAA(v6: Ipv6) | Other(text: string)

  /** The address family a content value holds, if it holds an address. */
  function ContentFamily(c: DnsContent): Option<AddressFamily> {
    match c
    case A(_) => Some(IPv4)
    case AAAA(_) => Some(IPv6)
    case Other(_) => Option.None
  }

  /** `From<IpAddr> for DnsContent`. */
  function ContentOf(addr: IpAddr): (c: DnsContent)
    ensures ContentFamily(c) == Some(FamilyOf(addr))
    ensures addr.V4? ==> c == DnsContent.A(addr.v4)
    ensures addr.V6? ==> c == DnsContent.AAAA(addr.v6)
  {
    match addr
    case V4(a) => DnsContent.A(a)
    case V6(a) => DnsContent.AAAA(a)
  }

  /** `Display for DnsContent` (and its serialisation, which writes the same text). */
  function DisplayContent(syntax: IpSyntax, c: DnsContent): (s: string)
    ensures c.Other? ==> s == c.text
    ensures c.A? ==> s == syntax.show(V4(c.v4))
    ensures c.AAAA? ==> s == syntax.show(V6(c.v6))
  {
    match c
    case A(a) => syntax.show(V4(a))
    case AAAA(a) => syntax.show(V6(a))
    case Other(s) => s
  }

  /** `FromStr for DnsContent`: never fails; text that is no address is kept as `Other`. */
  function ParseContent(syntax: IpSyntax, s: string): (r: Result<DnsContent, ()>)
    ensures r.Ok?
    ensures r.value.Other? <==> syntax.parse(s).None?
    ensures r.value.Other? ==> r.value.text == s
    ensures syntax.parse(s).Some? ==> r.value == ContentOf(syntax.parse(s).value)
  {
    match syntax.parse(s)
    case Some(addr) => Ok(ContentOf(addr))
    case None => Ok(DnsContent.Other(s))
  }

  /**
   * Displayed content parses back to itself, provided an `Other` text does not itself read as
   * an address.
   */
  lemma ContentRoundTrip(syntax: IpSyntax, c: DnsContent)
    requires Lawful(syntax)
    requires c.Other? ==> syntax.parse(c.text).None?
    ensures ParseContent(syntax, DisplayContent(syntax, c)) == Ok(c)
  {
    match c
    case A(a) => assert syntax.parse(syntax.show(V4(a))) == Some(V4(a));
    case AAAA(a) => assert syntax.parse(syntax.show(V6(a))) == Some(V6(a));
    case Other(_) =>
  }

  /** Text that is not an address is displayed verbatim after parsing. */
  lemma OpaqueTextRoundTrip(syntax: IpSyntax, s: string)
    requires syntax.parse(s).None?
    ensures DisplayContent(syntax, ParseContent(syntax, s).value) == s
  {
  }

  /** The key details of one DNS record at the provider. */
  datatype DnsRecord = DnsRecord(
    id: Option<Id>,
    zoneId: Id,
    name: string,
    ty: DnsRecordType,
    content: DnsContent,
    proxied: ProxyMode,
    ttl: Ttl)

  /** The record's declared type and its stored content both agree with the family of `addr`. */
  predicate Accepts(r: DnsRecord, addr: IpAddr) {
    r.ty == TypeOfFamily(FamilyOf(addr)) && ContentFamily(r.content) == Some(FamilyOf(addr))
  }

  datatype Applied = Applied(changed: bool, record: DnsRecord)

  datatype RecordError = AddressTypeMismatch(record: string)

  /**
   * `DnsRecord::try_update`: stores `addr` as the content when the record accepts it, and says
   * whether anything changed; a record of another family is refused and left as it was.
   */
  function TryUpdate(r: DnsRecord, addr: IpAddr): (u: Result<Applied, RecordError>)
    ensures u.Ok? <==> Accepts(r, addr)
    ensures u.Err? ==> u.error == AddressTypeMismatch(r.name)
    ensures u.Ok? ==> u.value.record == r.(content := ContentOf(addr))
    ensures u.Ok? ==> (u.value.changed <==> r.content != ContentOf(addr))
  {
    match addr
    case V4(desired) =>
      if r.ty == DnsRecordType.A then
        match r.content
        case A(current) =>
          if current == desired then Ok(Applied(false, r))
          else Ok(Applied(true, r.(content := DnsContent.A(desired))))
        case _ => Err(AddressTypeMismatch(r.name))
      else Err(AddressTypeMismatch(r.name))
    case V6(desired) =>
      if r.ty == DnsRecordType.AAAA then
        match r.content
        case AAAA(current) =>
          if current == desired then Ok(Applied(false, r))
          else Ok(Applied(true, r.(content := DnsContent.AAAA(desired))))
        case _ => Err(AddressTypeMismatch(r.name))
      else Err(AddressTypeMismatch(r.name))
  }

  /** After a successful update, applying the same address again changes nothing. */
  lemma TryUpdateIdempotent(r: DnsRecord, addr: IpAddr)
    requires TryUpdate(r, addr).Ok?
    ensures TryUpdate(TryUpdate(r, addr).value.record, addr) == Ok(Applied(false, TryUpdate(r, addr).value.record))
  {
  }

  /** An error reported by the provider or met on the way to it. */
  datatype ApiError =
    | Transport(reason: string)
    | Provider(code: nat, message: string)
    | NullPayload
    | NoSuchZone(zone: string)
    | CreateWithId
    | UpdateWithoutId

  datatype ResponseError = ResponseError(code: nat, message: string)

  /** The envelope of every provider reply. */
  datatype Response<T> = Response(success: bool, result: Option<T>, errors: seq<ResponseError>)

  /**
   * `Response::ok`: a successful reply yields its payload, or `NullPayload` if it has none; a
   * failed one yields its last error. The source panics on a failed reply with no errors.
   */
  function Unwrap<T>(resp: Response<T>): (r: Result<T, ApiError>)
    requires !resp.success ==> |resp.errors| > 0
    ensures r.Ok? <==> resp.success && resp.result.Some?
    ensures r.Ok? ==> r.value == resp.result.value
    ensures resp.success && resp.result.None? ==> r == Err(NullPayload)
    ensures !resp.success ==>
      r == Err(Provider(resp.errors[|resp.errors| - 1].code, resp.errors[|resp.errors| - 1].message))
  {
    if resp.success then
      if resp.result.Some? then Ok(resp.result.value) else Err(NullPayload)
    else
      var e := resp.errors[|resp.errors| - 1];
      Err(Provider(e.code, e.message))
  }

  /** Only the last listed error decides a failed reply: errors listed before it are dropped. */
  lemma UnwrapLastErrorDecides<T>(resp: Response<T>, earlier: seq<ResponseError>)
    requires !resp.success && |resp.errors| > 0
    ensures Unwrap(resp.(errors := earlier + resp.errors)) == Unwrap(resp)
    ensures Unwrap(resp) == Unwrap(resp.(errors := [resp.errors[|resp.errors| - 1]]))
  {
  }

  /**
   * A token-bound provider client, as answers to its requests. Each answer stands for the HTTP
   * exchange followed by `Response::ok` and, for lookups, by taking the last listed record.
   */
  datatype Api = Api(
    get: (Id, string, DnsRecordType) -> Result<Option<DnsRecord>, ApiError>,
    getByName: (Id, string) -> Result<Option<DnsRecord>, ApiError>,
    post: DnsRecord -> Result<DnsRecord, ApiError>,
    put: DnsRecord -> Result<DnsRecord, ApiError>)

  /** `Cloudflare::create`: refuses a record that already has an id; the reply replaces the record. */
  function Create(api: Api, r: DnsRecord): (res: Result<DnsRecord, ApiError>)
    ensures r.id.Some? ==> res == Err(CreateWithId)
    ensures r.id.None? ==> res == api.post(r)
  {
    if r.id.Some? then Err(CreateWithId) else api.post(r)
  }

  /** `Cloudflare::update`: refuses a record without an id; the reply replaces the record. */
  function Update(api: Api, r: DnsRecord): (res: Result<DnsRecord, ApiError>)
    ensures r.id.None? ==> res == Err(UpdateWithoutId)
    ensures r.id.Some? ==> res == api.put(r)
  {
    if r.id.Some? then api.put(r) else Err(UpdateWithoutId)
  }

  /** Zone lookup by name with a given token: `(token, name)` to the zone listed last, if any. */
  type ZoneDirectory = (string, string) -> Result<Option<Zone>, ApiError>

  /** `Zone::get`: the zone of that name, an error if the provider lists none. */
  function GetZone(directory: ZoneDirectory, name: string, token: string): (r: Result<Zone, ApiError>)
    ensures r.Ok? <==> directory(token, name).Ok? && directory(token, name).value.Some?
    ensures r.Ok? ==> r.value.id == directory(token, name).value.value.id && r.value.records == []
    ensures directory(token, name) == Ok(Option.None) ==> r == Err(NoSuchZone(name))
    ensures directory(token, name).Err? ==> r == Err(directory(token, name).error)
    ensures r.Ok? ==> r.value == directory(token, name).value.value.(records := [])
  {
    match directory(token, name)
    case Err(e) => Err(e)
    case Ok(Some(zone)) => Ok(zone.(records := []))
    case Ok(None) => Err(NoSuchZone(name))
  }
}

=== FILE: config_file.dfy ===
/** The configuration file's contents, zone lookup and validation (src/config/file.rs). */
module FileConfig {
  import opened Results
  import opened Cloudflare
  import opened Settings

  datatype ZoneConfig = ZoneConfig(id: Option<Id>, name: string, token: string)

  datatype RecordConfig = RecordConfig(
    name: string,
    zone: string,
    interface: string,
    ty: DnsRecordType,
    ttl: Ttl,
    proxied: ProxyMode)

  datatype ConfigFile = ConfigFile(interfaces: seq<Interface>, records: seq<RecordConfig>, zones: seq<ZoneConfig>)

  /** `ConfigFile::zone`: the first declared zone of that name. */
  function FindZone(zones: seq<ZoneConfig>, name: string): (r: Option<ZoneConfig>)
    ensures r.None? <==> forall i | 0 <= i < |zones| :: zones[i].name != name
    ensures r.Some? ==> exists i | 0 <= i < |zones| ::
      && zones[i] == r.value
      && r.value.name == name
      && forall j | 0 <= j < i :: zones[j].name != name
  {
    if |zones| == 0 then Option.None
    else if zones[0].name == name then Some(zones[0])
    else
      var r := FindZone(zones[1..], name);
      assert forall i | 1 <= i < |zones| :: zones[i] == zones[1..][i - 1];
      r
  }

  datatype ValidationError =
    | InterfaceMissingName(index: nat)
    | RecordMissingName(index: nat)
    | RecordMissingInterface(record: string)
    | RecordMissingZone(record: string)
    | ZoneMissingName(index: nat)
    | ZoneMissingToken(zone: string)

  /** What is wrong with the record at `index`, checking its name, interface and zone in turn. */
  function RecordFault(r: RecordConfig, index: nat): Option<ValidationError> {
    if r.name == "" then Some(RecordMissingName(index))
    else if r.interface == "" then Some(RecordMissingInterface(r.name))
    else if r.zone == "" then Some(RecordMissingZone(r.name))
    else Option.None
  }

  /** What is wrong with the zone at `index`, checking its name, then its token. */
  function ZoneFault(z: ZoneConfig, index: nat): Option<ValidationError> {
    if z.name == "" then Some(ZoneMissingName(index))
    else if z.token == "" then Some(ZoneMissingToken(z.name))
    else Option.None
  }

  predicate InterfacesNamed(c: ConfigFile) {
    forall i | 0 <= i < |c.interfaces| :: c.interfaces[i].name != ""
  }

  predicate RecordsBound(c: ConfigFile) {
    forall i | 0 <= i < |c.records| :: RecordFault(c.records[i], i).None?
  }

  predicate ZonesUsable(c: ConfigFile) {
    forall i | 0 <= i < |c.zones| :: ZoneFault(c.zones[i], i).None?
  }

  predicate Valid(c: ConfigFile) {
    InterfacesNamed(c) && RecordsBound(c) && ZonesUsable(c)
  }

  /**
   * The first violation in checking order: interfaces first, then records, then zones, each
   * list from its start.
   */
  ghost predicate IsFirstFault(c: ConfigFile, e: ValidationError) {
    || (exists i | 0 <= i < |c.interfaces| ::
          && c.interfaces[i].name == ""
          && e == InterfaceMissingName(i)
          && forall j | 0 <= j < i :: c.interfaces[j].name != "")
    || (&& InterfacesNamed(c)
        && exists i | 0 <= i < |c.records| ::
          && RecordFault(c.records[i], i) == Some(e)
          && forall j | 0 <= j < i :: RecordFault(c.records[j], j).None?)
    || (&& InterfacesNamed(c)
        && RecordsBound(c)
        && exists i | 0 <= i < |c.zones| ::
          && ZoneFault(c.zones[i], i) == Some(e)
          && forall j | 0 <= j < i :: ZoneFault(c.zones[j], j).None?)
  }

  /** `validate`: the configuration unchanged if it is valid, otherwise its first violation. */
  method Validate(config: ConfigFile) returns (r: Result<ConfigFile, ValidationError>)
    ensures r.Ok? <==> Valid(config)
    ensures r.Ok? ==> r.value == config
    ensures r.Err? ==> IsFirstFault(config, r.error)
  {
    var i := 0;
    while i < |config.interfaces|
      invariant 0 <= i <= |config.interfaces|
      invariant forall j | 0 <= j < i :: config.interfaces[j].name != ""
    {
      if config.interfaces[i].name == "" {
        return Err(InterfaceMissingName(i));
      }
      i := i + 1;
    }

    i := 0;
    while i < |config.records|
      invariant 0 <= i <= |config.records|
      invariant forall j | 0 <= j < i :: RecordFault(config.records[j], j).None?
    {
      var record := config.records[i];
      if record.name == "" {
        return Err(RecordMissingName(i));
      }
      if record.interface == "" {
        return Err(RecordMissingInterface(record.name));
      }
      if record.zone == "" {
        return Err(RecordMissingZone(record.name));
      }
      i := i + 1;
    }

    i := 0;
    while i < |config.zones|
      invariant 0 <= i <= |config.zones|
      invariant forall j | 0 <= j < i :: ZoneFault(config.zones[j], j).None?
    {
      var zone := config.zones[i];
      if zone.name == "" {
        return Err(ZoneMissingName(i));
      }
      if zone.token == "" {
        return Err(ZoneMissingToken(zone.name));
      }
      i := i + 1;
    }

    return Ok(config);
  }
}

=== FILE: decimal.dfy ===
/** Decimal text of unsigned integers, as Rust's `{}` formatting writes a `u32`. */
module Decimal {

  predicate IsDigit(c: char) {
    '0' <= c <= '9'
  }

  function DigitChar(d: nat): (c: char)
    requires d < 10
    ensures IsDigit(c)
    ensures c as int - '0' as int == d
  {
    ('0' as int + d) as char
  }

  /** The shortest decimal text of `n`: at least one digit and no leading zero. */
  function Show(n: nat): (s: string)
    ensures |s| >= 1
    ensures forall i | 0 <= i < |s| :: IsDigit(s[i])
    ensures |s| > 1 ==> s[0] != '0'
    ensures n < 10 <==> |s| == 1
  {
    if n < 10 then [DigitChar(n)] else Show(n / 10) + [DigitChar(n % 10)]
  }

  /** The value of a string of decimal digits, most significant first. */
  function Read(s: string): nat
    requires forall i | 0 <= i < |s| :: IsDigit(s[i])
  {
    if |s| == 0 then 0
    else Read(s[..|s| - 1]) * 10 + DigitValue(s[|s| - 1])
  }

  function DigitValue(c: char): (d: nat)
    requires IsDigit(c)
    ensures d < 10
  {
    c as int - '0' as int
  }

  /** Reading back the text `Show` writes gives the number again. */
  lemma {:induction false} ReadShow(n: nat)
    ensures Read(Show(n)) == n
  {
    if n >= 10 {
      var s := Show(n);
      assert s[..|s| - 1] == Show(n / 10);
      ReadShow(n / 10);
    }
  }

  /** Distinct numbers have distinct decimal texts. */
  lemma ShowInjective(m: nat, n: nat)
    requires Show(m) == Show(n)
    ensures m == n
  {
    ReadShow(m);
    ReadShow(n);
  }
}

=== FILE: results.dfy ===
/** Failure-compatible wrappers standing in for Rust's `Option` and `Result`. */
module Results {

  datatype Option<+T> = None | Some(value: T)

  datatype Result<+T, +E> = Ok(value: T) | Err(error: E) {

    predicate IsFailure() {
      Err?
    }

    function PropagateFailure<U>(): Result<U, E>
      requires Err?
    {
      Err(error)
    }

    function Extract(): T
      requires Ok?
    {
      value
    }
  }
}

=== FILE: scenarios.dfy ===
/**
 * Worked passes over one `A` record `home` in zone `example.com`, bound to interface `eth0`:
 * creation of an unknown record, adoption of an up-to-date one, and an address change.
 */
module Scenarios {
  import opened Results
  import opened System
  import opened Cloudflare
  import opened Settings
  import opened Watchers

  /** 203.0.113.5 and 203.0.113.9 as 32-bit values. */
  const First: Ipv4 := 203 * 0x100_0000 + 113 * 0x100 + 5
  const Second: Ipv4 := 203 * 0x100_0000 + 113 * 0x100 + 9

  const ZoneId := Id("zone-1")
  const RecordId := Id("rec-1")

  /** The record as assembly synthesises it while `eth0` holds `addr`. */
  function Home(addr: Ipv4): DnsRecord {
    DnsRecord(Option.None, ZoneId, "home", DnsRecordType.A, DnsContent.A(addr), ProxyMode.None, DefaultTtl)
  }

  function Eth0(addr: Ipv4): IfTable {
    map["eth0" := InterfaceInfo(Some(addr), Option.None)]
  }

  function HomeWatcher(r: DnsRecord): Watcher {
    Watcher("token", Interface("eth0", DefaultInterval, InterfaceInfo(Option.None, Option.None)),
            [Zone(ZoneId, "example.com", [r])])
  }

  /** A provider holding `stored` (if any) and assigning `RecordId` to what it creates. */
  function Store(stored: Option<DnsRecord>): Api {
    Api((z: Id, n: string, ty: DnsRecordType) => Ok(stored),
        (z: Id, n: string) => Ok(stored),
        (r: DnsRecord) => Ok(r.(id := Some(RecordId))),
        (r: DnsRecord) => Ok(r))
  }

  /**
   * No record upstream: the pass looks `home` up, creates it with the interface address, and
   * ends with the provider's id; the next pass sends nothing.
   */
  lemma CreateThenQuiet()
    ensures var p := Poll(HomeWatcher(Home(First)), Eth0(First), Store(Option.None));
      && p.calls == [LookupCall(ZoneId, "home", DnsRecordType.A), CreateCall(Home(First))]
      && p.outcome == Ok(())
      && p.value.watching[0].records == [Home(First).(id := Some(RecordId))]
      && Poll(p.value, Eth0(First), Store(Option.None)) == Trace(p.value, [], Ok(()))
  {
    var w := HomeWatcher(Home(First));
    var api := Store(Option.None);
    var info := Eth0(First)["eth0"];
    var zone := w.watching[0];
    assert Desired(Home(First), info) == Some(V4(First));
    assert SyncRecord(ZoneId, Home(First), info, api)
      == Trace(Home(First).(id := Some(RecordId)), [LookupCall(ZoneId, "home", DnsRecordType.A), CreateCall(Home(First))], Ok(()));
    assert SyncRecords(ZoneId, zone.records, info, api).calls
      == [LookupCall(ZoneId, "home", DnsRecordType.A), CreateCall(Home(First))];
    var p := Poll(w, Eth0(First), api);
    assert p.value.watching[0].records == [Home(First).(id := Some(RecordId))];
    assert Settled(p.value.watching[0].records[0], info);
    SettledZonesAreQuiet(p.value.watching, info, api);
  }

  /**
   * `home` already upstream with the current address: the pass only looks it up and adopts
   * the provider's copy, sending no write.
   */
  lemma AdoptUpToDate()
    ensures var upstream := Home(First).(id := Some(RecordId));
      var p := Poll(HomeWatcher(Home(First)), Eth0(First), Store(Some(upstream)));
      && p.calls == [LookupCall(ZoneId, "home", DnsRecordType.A)]
      && p.outcome == Ok(())
      && p.value.watching[0].records == [upstream]
  {
    var upstream := Home(First).(id := Some(RecordId));
    var api := Store(Some(upstream));
    var info := Eth0(First)["eth0"];
    assert SyncRecord(ZoneId, Home(First), info, api) == Trace(upstream, [LookupCall(ZoneId, "home", DnsRecordType.A)], Ok(()));
    assert [Home(First)][1..] == [];
    assert SyncRecords(ZoneId, [], info, api) == Trace([], [], Ok(()));
    assert [upstream] + [] == [upstream] && [LookupCall(ZoneId, "home", DnsRecordType.A)] + [] == [LookupCall(ZoneId, "home", DnsRecordType.A)];
    assert SyncRecords(ZoneId, [Home(First)], info, api) == Trace([upstream], [LookupCall(ZoneId, "home", DnsRecordType.A)], Ok(()));
    var zone := HomeWatcher(Home(First)).watching[0];
    assert [zone][1..] == [];
    assert SyncZones([], info, api) == Trace([], [], Ok(()));
    assert zone.records == [Home(First)] && zone.id == ZoneId;
    assert [zone.(records := [upstream])] + [] == [zone.(records := [upstream])];
    assert SyncZones([zone], info, api) == Trace([zone.(records := [upstream])], [LookupCall(ZoneId, "home", DnsRecordType.A)], Ok(()));
  }

  /** The address moves to 203.0.113.9: the resolved record gets exactly one update with it. */
  lemma AddressChangeUpdates()
    ensures var resolved := Home(First).(id := Some(RecordId));
      var moved := resolved.(content := DnsContent.A(Second));
      var p := Poll(HomeWatcher(resolved), Eth0(Second), Store(Some(resolved)));
      && p.calls == [UpdateCall(moved)]
      && p.outcome == Ok(())
      && p.value.watching[0].records == [moved]
  {
    var resolved := Home(First).(id := Some(RecordId));
    var moved := resolved.(content := DnsContent.A(Second));
    var api := Store(Some(resolved));
    var info := Eth0(Second)["eth0"];
    assert Desired(resolved, info) == Some(V4(Second));
    assert TryUpdate(resolved, V4(Second)) == Ok(Applied(true, moved));
    assert SyncRecord(ZoneId, resolved, info, api) == Trace(moved, [UpdateCall(moved)], Ok(()));
    assert [resolved][1..] == [];
    assert SyncRecords(ZoneId, [], info, api) == Trace([], [], Ok(()));
    assert [moved] + [] == [moved] && [UpdateCall(moved)] + [] == [UpdateCall(moved)];
    assert SyncRecords(ZoneId, [resolved], info, api) == Trace([moved], [UpdateCall(moved)], Ok(()));
    var zone := HomeWatcher(resolved).watching[0];
    assert [zone][1..] == [];
    assert SyncZones([], info, api) == Trace([], [], Ok(()));
    assert zone.records == [resolved] && zone.id == ZoneId;
    assert [zone.(records := [moved])] + [] == [zone.(records := [moved])];
    assert SyncZones([zone], info, api) == Trace([zone.(records := [moved])], [UpdateCall(moved)], Ok(()));
  }
}

=== FILE: seqs.dfy ===
/** Order-preserving selection and de-duplication over sequences. */
module Seqs {

  /** The elements of `xs` that satisfy `keep`, in their original order. */
  function Filter<T(==,!new)>(xs: seq<T>, keep: T -> bool): (ys: seq<T>)
    ensures |ys| <= |xs|
    ensures forall y :: y in ys <==> y in xs && keep(y)
  {
    if |xs| == 0 then []
    else Filter(xs[..|xs| - 1], keep) + (if keep(xs[|xs| - 1]) then [xs[|xs| - 1]] else [])
  }

  /**
   * Filtering distributes over concatenation; with the one-element case this fixes the result
   * as the kept elements in their original order.
   */
  lemma {:induction false} FilterConcat<T(!new)>(xs: seq<T>, ys: seq<T>, keep: T -> bool)
    ensures Filter(xs + ys, keep) == Filter(xs, keep) + Filter(ys, keep)
  {
    if |ys| > 0 {
      var init := ys[..|ys| - 1];
      var last := ys[|ys| - 1];
      var extra := if keep(last) then [last] else [];
      FilterConcat(xs, init, keep);
      assert (xs + ys)[..|xs + ys| - 1] == xs + init;
      assert (xs + ys)[|xs + ys| - 1] == last;
      assert Filter(xs + ys, keep) == Filter(xs + init, keep) + extra;
      assert Filter(ys, keep) == Filter(init, keep) + extra;
      assert Filter(xs + ys, keep) == Filter(xs, keep) + (Filter(init, keep) + extra);
    } else {
      assert xs + ys == xs;
    }
  }

  lemma FilterSingleton<T(!new)>(x: T, keep: T -> bool)
    ensures Filter([x], keep) == if keep(x) then [x] else []
  {
  }

  /** The elements of `xs` without repeats, each at its first occurrence. */
  function Distinct<T(==,!new)>(xs: seq<T>): (ys: seq<T>)
    ensures forall x :: x in ys <==> x in xs
    ensures forall i, j | 0 <= i < j < |ys| :: ys[i] != ys[j]
  {
    if |xs| == 0 then []
    else
      var init := Distinct(xs[..|xs| - 1]);
      var last := xs[|xs| - 1];
      assert forall x :: x in xs <==> x in xs[..|xs| - 1] || x == last;
      if last in init then init else init + [last]
  }
}

=== FILE: settings.dfy ===
/** The interface settings shared by configuration and watchers (src/config/mod.rs). */
module Settings {
  import opened Results
  import opened System

  newtype U16 = x: int | 0 <= x < 0x1_0000

  /** A poll interval in seconds. */
  datatype Interval = Interval(seconds: U16)

  /** `Interval::default`. */
  const DefaultInterval := Interval(300)

  /** A configured interface and the address snapshot last read for it. */
  datatype Interface = Interface(name: string, interval: Interval, info: InterfaceInfo) {
    function Address(family: AddressFamily): Option<IpAddr> {
      info.Address(family)
    }
  }
}

=== FILE: show.dfy ===
/**
 * The status report of the `show` command (src/command/show.rs): each watched record is
 * compared with its upstream copy, and the comparisons are summed up per watcher.
 */
module ShowCommand {
  import opened Results
  import opened Cloudflare
  import opened Watchers

  /** How a local record compares with the provider's copy. */
  datatype CloudflareStatus =
    | OK
    | Missing
    | TypeMismatch(upstreamType: DnsRecordType)
    | OutOfSync
    | Error(cause: ApiError)

  /** The summary of a watcher's records. */
  datatype WatcherStatus = Disabled | Synced | OutOfSync | Failed

  /** One line of the report: the local record, what the provider holds, and the verdict. */
  datatype SyncStatus = SyncStatus(
    name: string,
    zone: Id,
    ty: DnsRecordType,
    local: DnsContent,
    upstream: Option<DnsContent>,
    status: CloudflareStatus,
    proxied: ProxyMode,
    ttl: Ttl)

  /**
   * Compares record `r` of zone `zone` with `answer`, the provider's reply to a lookup by
   * name. The provider's proxy mode and TTL are reported when it has a record, the defaults
   * otherwise.
   */
  function Classify(zone: Id, r: DnsRecord, answer: Result<Option<DnsRecord>, ApiError>): (s: SyncStatus)
    ensures s.name == r.name && s.zone == zone && s.ty == r.ty && s.local == r.content
    ensures answer == Ok(Option.None) <==> s.status == Missing
    ensures answer.Err? <==> s.status.Error?
    ensures answer.Err? ==> s.status == Error(answer.error)
    ensures s.status == OK <==> answer.Ok? && answer.value.Some? && answer.value.value.ty == r.ty && answer.value.value.content == r.content
    ensures s.status == CloudflareStatus.OutOfSync <==>
      answer.Ok? && answer.value.Some? && answer.value.value.ty == r.ty && answer.value.value.content != r.content
    ensures s.status.TypeMismatch? <==> answer.Ok? && answer.value.Some? && answer.value.value.ty != r.ty
    ensures s.status.TypeMismatch? ==> s.status.upstreamType == answer.value.value.ty
    ensures answer.Ok? && answer.value.Some? ==>
      && s.upstream == Some(answer.value.value.content)
      && s.proxied == answer.value.value.proxied
      && s.ttl == answer.value.value.ttl
    ensures !(answer.Ok? && answer.value.Some?) ==>
      s.upstream == Option.None && s.proxied == DefaultProxyMode && s.ttl == DefaultTtl
  {
    var base := SyncStatus(r.name, zone, r.ty, r.content, Option.None, Missing, DefaultProxyMode, DefaultTtl);
    match answer
    case Ok(None) => base
    case Ok(Some(upstream)) =>
      var found := base.(proxied := upstream.proxied, ttl := upstream.ttl, upstream := Some(upstream.content));
      if r.ty != upstream.ty then found.(status := TypeMismatch(upstream.ty))
      else if r.content == upstream.content then found.(status := OK)
      else found.(status := CloudflareStatus.OutOfSync)
    case Err(e) => base.(status := Error(e))
  }

  /** The watcher status after one more record: an error fails it, any other difference puts it out of sync. */
  function Mark(current: WatcherStatus, s: CloudflareStatus): (m: WatcherStatus)
    ensures s == OK ==> m == current
    ensures s != OK ==> (m == Failed <==> s.Error?) && (m == Failed || m == WatcherStatus.OutOfSync)
  {
    match s
    case Error(_) => Failed
    case OK => current
    case _ => WatcherStatus.OutOfSync
  }

  /** The record statuses folded from the left, starting from `current`. */
  function Fold(current: WatcherStatus, statuses: seq<CloudflareStatus>): (f: WatcherStatus)
    ensures f == current || f == Failed || f == WatcherStatus.OutOfSync
    ensures (forall i | 0 <= i < |statuses| :: statuses[i] == OK) ==> f == current
    decreases |statuses|
  {
    if |statuses| == 0 then current else Fold(Mark(current, statuses[0]), statuses[1..])
  }

  /** The watcher status: disabled without records, otherwise the fold starting from synced. */
  function Summary(statuses: seq<CloudflareStatus>): (w: WatcherStatus)
    ensures w == Disabled <==> |statuses| == 0
  {
    if |statuses| == 0 then Disabled else FoldNeverDisables(statuses); Fold(Synced, statuses)
  }

  lemma FoldNeverDisables(statuses: seq<CloudflareStatus>)
    requires |statuses| > 0
    ensures Fold(Synced, statuses) != Disabled
  {
    LastDifferenceDecides(Synced, statuses);
  }

  /** The index of the last record that differs from its upstream copy, if any. */
  function LastDifference(statuses: seq<CloudflareStatus>): (k: Option<nat>)
    ensures k.None? <==> forall i | 0 <= i < |statuses| :: statuses[i] == OK
    ensures k.Some? ==>
      && k.value < |statuses|
      && statuses[k.value] != OK
      && forall i | k.value < i < |statuses| :: statuses[i] == OK
  {
    if |statuses| == 0 then Option.None
    else if statuses[|statuses| - 1] != OK then Some(|statuses| - 1)
    else LastDifference(statuses[..|statuses| - 1])
  }

  /** The fold agrees with its reading: the last differing record decides, and an error there fails the watcher. */
  lemma {:induction false} LastDifferenceDecides(current: WatcherStatus, statuses: seq<CloudflareStatus>)
    ensures Fold(current, statuses) == match LastDifference(statuses)
      case None => current
      case Some(k) => if statuses[k].Error? then Failed else WatcherStatus.OutOfSync
    decreases |statuses|
  {
    if |statuses| > 0 {
      var tail := statuses[1..];
      LastDifferenceDecides(Mark(current, statuses[0]), tail);
      assert forall i | 0 <= i < |tail| :: tail[i] == statuses[i + 1];
      match LastDifference(tail)
      case None =>
        assert forall i | 1 <= i < |statuses| :: statuses[i] == OK;
        if statuses[0] == OK {
          assert LastDifference(statuses).None?;
        } else {
          assert LastDifference(statuses) == Some(0);
        }
      case Some(k) =>
        assert LastDifference(statuses) == Some(k + 1);
    }
  }

  /**
   * The watcher status in terms of its records: disabled without records, synced when all
   * agree, otherwise decided by the last record that does not.
   */
  lemma SummaryMeaning(statuses: seq<CloudflareStatus>)
    ensures Summary(statuses) == Synced <==> |statuses| > 0 && forall i | 0 <= i < |statuses| :: statuses[i] == OK
    ensures Summary(statuses) == Failed <==>
      exists k | 0 <= k < |statuses| :: statuses[k].Error? && forall i | k < i < |statuses| :: statuses[i] == OK
    ensures Summary(statuses) == WatcherStatus.OutOfSync <==>
      exists k | 0 <= k < |statuses| :: statuses[k] != OK && !statuses[k].Error? && forall i | k < i < |statuses| :: statuses[i] == OK
  {
    if |statuses| > 0 {
      LastDifferenceDecides(Synced, statuses);
    }
  }

  /** Every record of every zone, paired with its zone's id, in zone order then record order. */
  function Entries(zones: seq<Zone>): (es: seq<(Id, DnsRecord)>)
    ensures |es| == 0 <==> forall i | 0 <= i < |zones| :: |zones[i].records| == 0
  {
    if |zones| == 0 then []
    else
      var z := zones[0];
      var rest := Entries(zones[1..]);
      assert forall i | 1 <= i < |zones| :: zones[1..][i - 1] == zones[i];
      seq(|z.records|, j requires 0 <= j < |z.records| => (z.id, z.records[j])) + rest
  }

  /** The number of records over all zones. */
  function RecordCount(zones: seq<Zone>): nat {
    if |zones| == 0 then 0 else |zones[0].records| + RecordCount(zones[1..])
  }

  /** There is one entry per record. */
  lemma {:induction false} EntriesCount(zones: seq<Zone>)
    ensures |Entries(zones)| == RecordCount(zones)
  {
    if |zones| > 0 {
      EntriesCount(zones[1..]);
    }
  }

  /** The entries of one zone are its records, in order, each with the zone's id. */
  lemma EntriesSingleton(z: Zone)
    ensures |Entries([z])| == |z.records|
    ensures forall j | 0 <= j < |z.records| :: Entries([z])[j] == (z.id, z.records[j])
  {
    assert [z][1..] == [];
  }

  /** The entries of consecutive zones are the entries of the first, then those of the second. */
  lemma {:induction false} EntriesConcat(a: seq<Zone>, b: seq<Zone>)
    ensures Entries(a + b) == Entries(a) + Entries(b)
  {
    if |a| > 0 {
      assert (a + b)[0] == a[0];
      assert (a + b)[1..] == a[1..] + b;
      EntriesConcat(a[1..], b);
    } else {
      assert a + b == b;
    }
  }

  /** The report on one watcher: a line per record, in order, and the watcher's summary. */
  datatype Report = Report(lines: seq<SyncStatus>, status: WatcherStatus)

  /** `Show::invoke` for one watcher, looking each record up by name through `api`. */
  function Inspect(w: Watcher, api: Api): (rep: Report)
    ensures |rep.lines| == |Entries(w.watching)|
    ensures forall i | 0 <= i < |rep.lines| ::
      var (zone, r) := Entries(w.watching)[i];
      rep.lines[i] == Classify(zone, r, api.getByName(zone, r.name))
    ensures rep.status == Disabled <==> forall i | 0 <= i < |w.watching| :: |w.watching[i].records| == 0
    ensures rep.status == Synced <==> |rep.lines| > 0 && forall i | 0 <= i < |rep.lines| :: rep.lines[i].status == OK
  {
    var es := Entries(w.watching);
    var lines := seq(|es|, i requires 0 <= i < |es| => Classify(es[i].0, es[i].1, api.getByName(es[i].0, es[i].1.name)));
    var statuses := seq(|lines|, i requires 0 <= i < |lines| => lines[i].status);
    SummaryMeaning(statuses);
    assert forall i | 0 <= i < |lines| :: statuses[i] == lines[i].status;
    Report(lines, Summary(statuses))
  }
}

=== FILE: sync.dfy ===
/**
 * The one-shot branch of the `sync` command (src/command/sync.rs): the interface/record
 * filter applied to each watcher, then one pass per selected watcher, in order.
 */
module SyncCommand {
  import opened Results
  import opened System
  import opened Cloudflare
  import opened Watchers
  import Seqs

  /** Whether a watcher takes part in the run, and the watcher as the filter left it. */
  datatype Selection = Selection(selected: bool, watcher: Watcher)

  /** A zone with only the records named `rec`, in their original order. */
  function NarrowZone(z: Zone, rec: string): (n: Zone)
    ensures n.id == z.id && n.name == z.name
    ensures forall r :: r in n.records <==> r in z.records && r.name == rec
  {
    z.(records := Seqs.Filter(z.records, (r: DnsRecord) => r.name == rec))
  }

  /** Every zone narrowed to the records named `rec`, dropping zones left with none. */
  function NarrowZones(zones: seq<Zone>, rec: string): (ns: seq<Zone>)
    ensures forall z | z in ns :: |z.records| > 0
    ensures forall z | z in ns :: forall r | r in z.records :: r.name == rec
  {
    var narrowed := seq(|zones|, i requires 0 <= i < |zones| => NarrowZone(zones[i], rec));
    Seqs.Filter(narrowed, (z: Zone) => |z.records| > 0)
  }

  /** The zones kept are exactly the narrowed zones that still hold a record. */
  lemma NarrowZonesMembers(zones: seq<Zone>, rec: string)
    ensures forall n :: n in NarrowZones(zones, rec) <==>
      |n.records| > 0 && exists i | 0 <= i < |zones| :: n == NarrowZone(zones[i], rec)
  {
    var narrowed := seq(|zones|, i requires 0 <= i < |zones| => NarrowZone(zones[i], rec));
    assert NarrowZones(zones, rec) == Seqs.Filter(narrowed, (z: Zone) => |z.records| > 0);
    forall n ensures n in narrowed <==> exists i | 0 <= i < |zones| :: n == NarrowZone(zones[i], rec) {
      if n in narrowed {
        var i :| 0 <= i < |narrowed| && narrowed[i] == n;
      }
      if exists i | 0 <= i < |zones| :: n == NarrowZone(zones[i], rec) {
        var i :| 0 <= i < |zones| && n == NarrowZone(zones[i], rec);
        assert narrowed[i] == n;
      }
    }
  }

  /** Narrowing keeps the relative order of zones: it distributes over concatenation. */
  lemma NarrowZonesConcat(a: seq<Zone>, b: seq<Zone>, rec: string)
    ensures NarrowZones(a + b, rec) == NarrowZones(a, rec) + NarrowZones(b, rec)
  {
    var keep := (z: Zone) => |z.records| > 0;
    var na := seq(|a|, i requires 0 <= i < |a| => NarrowZone(a[i], rec));
    var nb := seq(|b|, i requires 0 <= i < |b| => NarrowZone(b[i], rec));
    assert seq(|a + b|, i requires 0 <= i < |a + b| => NarrowZone((a + b)[i], rec)) == na + nb;
    Seqs.FilterConcat(na, nb, keep);
  }

  /** Narrowing one zone keeps it exactly when one of its records has the name. */
  lemma NarrowZonesSingleton(z: Zone, rec: string)
    ensures NarrowZones([z], rec) == if |NarrowZone(z, rec).records| > 0 then [NarrowZone(z, rec)] else []
  {
    var keep := (z: Zone) => |z.records| > 0;
    assert seq(1, i requires 0 <= i < 1 => NarrowZone([z][i], rec)) == [NarrowZone(z, rec)];
    Seqs.FilterSingleton(NarrowZone(z, rec), keep);
  }

  /** Narrowing keeps the relative order of records within a zone. */
  lemma NarrowZoneConcat(z: Zone, a: seq<DnsRecord>, b: seq<DnsRecord>, rec: string)
    requires z.records == a + b
    ensures NarrowZone(z, rec).records == NarrowZone(z.(records := a), rec).records + NarrowZone(z.(records := b), rec).records
  {
    Seqs.FilterConcat(a, b, (r: DnsRecord) => r.name == rec);
  }

  /**
   * `should_watch`: a watcher of another interface is not selected and left alone; with a
   * record filter, only the records of that name are kept, zones left empty are dropped, and
   * the watcher is selected when a zone remains; otherwise it is selected unchanged.
   */
  function ShouldWatch(w: Watcher, iface: Option<string>, rec: Option<string>): (s: Selection)
    ensures iface.Some? && iface.value != w.interface.name ==> s == Selection(false, w)
    ensures rec.None? ==> s.watcher == w
    ensures (iface.None? || iface.value == w.interface.name) && rec.None? ==> s == Selection(true, w)
    ensures s.watcher.token == w.token && s.watcher.interface == w.interface
    ensures (iface.None? || iface.value == w.interface.name) && rec.Some? ==>
      && s.watcher.watching == NarrowZones(w.watching, rec.value)
      && (s.selected <==> |s.watcher.watching| > 0)
  {
    if iface.Some? && w.interface.name != iface.value then Selection(false, w)
    else if rec.Some? then
      var narrowed := w.(watching := NarrowZones(w.watching, rec.value));
      Selection(|narrowed.watching| > 0, narrowed)
    else Selection(true, w)
  }

  /** The filter keeps watchers ready for a pass: it only removes records. */
  lemma ShouldWatchKeepsWatchable(w: Watcher, iface: Option<string>, rec: Option<string>)
    requires Watchable(w.watching)
    ensures Watchable(ShouldWatch(w, iface, rec).watcher.watching)
  {
    var s := ShouldWatch(w, iface, rec);
    if s.watcher != w {
      var zones := s.watcher.watching;
      NarrowZonesMembers(w.watching, rec.value);
      forall i, j | 0 <= i < |zones| && 0 <= j < |zones[i].records| ensures IsAddressType(zones[i].records[j].ty) {
        assert zones[i] in zones;
        var k :| 0 <= k < |w.watching| && zones[i] == NarrowZone(w.watching[k], rec.value);
        assert zones[i].records[j] in zones[i].records;
        var m :| 0 <= m < |w.watching[k].records| && w.watching[k].records[m] == zones[i].records[j];
      }
    }
  }

  /** One watcher of the run: filtered, then polled with its client if selected. */
  function Step(w: Watcher, iface: Option<string>, rec: Option<string>, table: IfTable, clients: string -> Api)
    : (t: Trace<Watcher>)
    requires Watchable(w.watching)
    ensures !ShouldWatch(w, iface, rec).selected ==> t == Trace(ShouldWatch(w, iface, rec).watcher, [], Ok(()))
    ensures ShouldWatch(w, iface, rec).selected ==>
      Watchable(ShouldWatch(w, iface, rec).watcher.watching)
      && t == Poll(ShouldWatch(w, iface, rec).watcher, table, clients(w.token))
  {
    var s := ShouldWatch(w, iface, rec);
    ShouldWatchKeepsWatchable(w, iface, rec);
    if !s.selected then Trace(s.watcher, [], Ok(()))
    else Poll(s.watcher, table, clients(w.token))
  }

  predicate AllWatchable(ws: seq<Watcher>) {
    forall i | 0 <= i < |ws| :: Watchable(ws[i].watching)
  }

  /** The requests of the first `n` steps, in order. */
  function StepCalls(ws: seq<Watcher>, step: Watcher --> Trace<Watcher>, n: nat): seq<Call>
    requires forall i | 0 <= i < |ws| :: step.requires(ws[i])
    requires n <= |ws|
    decreases n
  {
    if n == 0 then []
    else
      assert forall i | 0 <= i < |ws| - 1 :: ws[1..][i] == ws[i + 1];
      step(ws[0]).calls + StepCalls(ws[1..], step, n - 1)
  }

  /**
   * Runs `step` over the watchers in order; the first failing step ends the run with its
   * error, and the watchers after it are left as they were.
   */
  function RunSteps(ws: seq<Watcher>, step: Watcher --> Trace<Watcher>): (t: Trace<seq<Watcher>>)
    requires forall i | 0 <= i < |ws| :: step.requires(ws[i])
    ensures |ws| == 0 ==> t == Trace([], [], Ok(()))
    ensures |t.value| == |ws|
    ensures t.outcome.Ok? <==> forall i | 0 <= i < |ws| :: step(ws[i]).outcome.Ok?
    ensures t.outcome.Ok? ==> forall i | 0 <= i < |ws| :: t.value[i] == step(ws[i]).value
    ensures t.outcome.Ok? ==> t.calls == StepCalls(ws, step, |ws|)
  {
    if |ws| == 0 then Trace([], [], Ok(()))
    else
      var head := step(ws[0]);
      if head.outcome.Err? then Trace([head.value] + ws[1..], head.calls, head.outcome)
      else
        var rest := RunSteps(ws[1..], step);
        assert forall i | 1 <= i < |ws| :: ws[1..][i - 1] == ws[i];
        Trace([head.value] + rest.value, head.calls + rest.calls, rest.outcome)
  }

  /**
   * Step `k` is where the run `t` over `ws` stopped: the steps before it passed, its error is
   * the run's, and no later watcher is touched.
   */
  predicate StopsAt(ws: seq<Watcher>, step: Watcher --> Trace<Watcher>, t: Trace<seq<Watcher>>, k: int)
    requires forall i | 0 <= i < |ws| :: step.requires(ws[i])
    requires |t.value| == |ws|
  {
    && 0 <= k < |ws|
    && (forall i | 0 <= i < k :: step(ws[i]).outcome.Ok?)
    && step(ws[k]).outcome == t.outcome
    && t.calls == StepCalls(ws, step, k + 1)
    && t.value[k + 1..] == ws[k + 1..]
  }

  /** A run whose first step fails stops there. */
  lemma StopsAtHead(ws: seq<Watcher>, step: Watcher --> Trace<Watcher>)
    requires forall i | 0 <= i < |ws| :: step.requires(ws[i])
    requires |ws| > 0 && step(ws[0]).outcome.Err?
    ensures StopsAt(ws, step, RunSteps(ws, step), 0)
  {
    var head := step(ws[0]);
    var t := RunSteps(ws, step);
    assert t == Trace([head.value] + ws[1..], head.calls, head.outcome);
    assert StepCalls(ws, step, 1) == head.calls + [];
    assert t.value[1..] == ws[1..];
  }

  /** Prefixing a passing step to a run that stops at `k` gives a run that stops at `k + 1`. */
  lemma StopsAtShift(ws: seq<Watcher>, step: Watcher --> Trace<Watcher>, t: Trace<seq<Watcher>>,
                     rest: Trace<seq<Watcher>>, k: int)
    requires forall i | 0 <= i < |ws| :: step.requires(ws[i])
    requires |ws| > 0 && step(ws[0]).outcome.Ok?
    requires |rest.value| == |ws| - 1
    requires t == Trace([step(ws[0]).value] + rest.value, step(ws[0]).calls + rest.calls, rest.outcome)
    requires StopsAt(ws[1..], step, rest, k)
    ensures StopsAt(ws, step, t, k + 1)
  {
    var tail := ws[1..];
    forall i | 0 <= i < k + 1 ensures step(ws[i]).outcome.Ok? {
      if i > 0 { assert ws[i] == tail[i - 1]; }
    }
    assert ws[k + 1] == tail[k];
    assert StepCalls(ws, step, k + 2) == step(ws[0]).calls + StepCalls(tail, step, k + 1);
    assert t.value[k + 2..] == rest.value[k + 1..];
    assert tail[k + 1..] == ws[k + 2..];
  }

  /** A run whose first step passes stops one step later than the run over the rest. */
  lemma StopsAtCons(ws: seq<Watcher>, step: Watcher --> Trace<Watcher>, k: int)
    requires forall i | 0 <= i < |ws| :: step.requires(ws[i])
    requires |ws| > 0 && step(ws[0]).outcome.Ok?
    requires StopsAt(ws[1..], step, RunSteps(ws[1..], step), k)
    ensures StopsAt(ws, step, RunSteps(ws, step), k + 1)
  {
    var head := step(ws[0]);
    var rest := RunSteps(ws[1..], step);
    assert RunSteps(ws, step) == Trace([head.value] + rest.value, head.calls + rest.calls, rest.outcome);
    StopsAtShift(ws, step, RunSteps(ws, step), rest, k);
  }

  /** A failing run stops at the first failing step. */
  lemma {:induction false} RunStepsStops(ws: seq<Watcher>, step: Watcher --> Trace<Watcher>)
    requires forall i | 0 <= i < |ws| :: step.requires(ws[i])
    requires RunSteps(ws, step).outcome.Err?
    ensures exists k :: StopsAt(ws, step, RunSteps(ws, step), k)
  {
    if step(ws[0]).outcome.Ok? {
      RunStepsStops(ws[1..], step);
      var k :| StopsAt(ws[1..], step, RunSteps(ws[1..], step), k);
      StopsAtCons(ws, step, k);
    } else {
      StopsAtHead(ws, step);
    }
  }

  /** The filter and pass of one-shot sync as a step over watchers ready for a pass. */
  function StepOf(iface: Option<string>, rec: Option<string>, table: IfTable, clients: string -> Api)
    : Watcher --> Trace<Watcher>
  {
    (w: Watcher) requires Watchable(w.watching) => Step(w, iface, rec, table, clients)
  }

  /**
   * The one-shot run: every watcher in order, filtered and then polled if selected; the
   * first failing pass ends the run.
   */
  function SyncOnce(ws: seq<Watcher>, iface: Option<string>, rec: Option<string>, table: IfTable, clients: string -> Api)
    : (t: Trace<seq<Watcher>>)
    requires AllWatchable(ws)
    ensures |ws| == 0 ==> t == Trace([], [], Ok(()))
    ensures |t.value| == |ws|
    ensures t.outcome.Ok? <==> forall i | 0 <= i < |ws| :: Step(ws[i], iface, rec, table, clients).outcome.Ok?
    ensures t.outcome.Ok? ==> forall i | 0 <= i < |ws| :: t.value[i] == Step(ws[i], iface, rec, table, clients).value
    ensures t.outcome.Ok? ==> t.calls == StepCalls(ws, StepOf(iface, rec, table, clients), |ws|)
  {
    RunSteps(ws, StepOf(iface, rec, table, clients))
  }

  /**
   * A failing one-shot run stops at the first failing watcher: those before it passed, its
   * error is the run's, only it and the watchers before it sent requests, and no later watcher
   * is touched.
   */
  lemma SyncOnceStops(ws: seq<Watcher>, iface: Option<string>, rec: Option<string>, table: IfTable, clients: string -> Api)
    requires AllWatchable(ws)
    requires SyncOnce(ws, iface, rec, table, clients).outcome.Err?
    ensures exists k | 0 <= k < |ws| ::
      && (forall i | 0 <= i < k :: Step(ws[i], iface, rec, table, clients).outcome.Ok?)
      && Step(ws[k], iface, rec, table, clients).outcome == SyncOnce(ws, iface, rec, table, clients).outcome
      && SyncOnce(ws, iface, rec, table, clients).calls == StepCalls(ws, StepOf(iface, rec, table, clients), k + 1)
      && SyncOnce(ws, iface, rec, table, clients).value[k + 1..] == ws[k + 1..]
  {
    var step := StepOf(iface, rec, table, clients);
    RunStepsStops(ws, step);
    var k :| StopsAt(ws, step, RunSteps(ws, step), k);
    assert forall i | 0 <= i < |ws| :: step(ws[i]) == Step(ws[i], iface, rec, table, clients);
  }

  /** With an interface filter that names no watcher's interface, the run sends nothing. */
  lemma NoMatchingInterfaceIsQuiet(ws: seq<Watcher>, name: string, rec: Option<string>, table: IfTable,
                                   clients: string -> Api)
    requires AllWatchable(ws)
    requires forall i | 0 <= i < |ws| :: ws[i].interface.name != name
    ensures SyncOnce(ws, Some(name), rec, table, clients) == Trace(ws, [], Ok(()))
  {
    QuietRun(ws, StepOf(Some(name), rec, table, clients));
  }

  /** Steps that change nothing and send nothing make a run that changes nothing and sends nothing. */
  lemma {:induction false} QuietRun(ws: seq<Watcher>, step: Watcher --> Trace<Watcher>)
    requires forall i | 0 <= i < |ws| :: step.requires(ws[i]) && step(ws[i]) == Trace(ws[i], [], Ok(()))
    ensures RunSteps(ws, step) == Trace(ws, [], Ok(()))
  {
    if |ws| > 0 {
      var tail := ws[1..];
      assert forall i | 0 <= i < |tail| :: tail[i] == ws[i + 1];
      QuietRun(tail, step);
      assert [ws[0]] + tail == ws;
    }
  }
}

=== FILE: system.dfy ===
/** Interface address snapshots and platform detection (src/system.rs). */
module System {
  import opened Results

  newtype Ipv4 = x: int | 0 <= x < 0x1_0000_0000
  newtype Ipv6 = x: int | 0 <= x < 0x1_0000_0000_0000_0000_0000_0000_0000_0000

  datatype IpAddr = V4(v4: Ipv4) | V6(v6: Ipv6)

  /** Address families reported by the interface library; every non-IP family is `NonIp`. */
  datatype AddressFamily = IPv4 | IPv6 | NonIp

  function FamilyOf(addr: IpAddr): (f: AddressFamily)
    ensures f != NonIp
  {
    match addr
    case V4(_) => IPv4
    case V6(_) => IPv6
  }

  /**
   * The textual form of addresses is left abstract: `parse` and `show` stand for
   * `str::parse::<IpAddr>` and `Display for IpAddr`. A lawful pair reads back what it writes,
   * which makes `show` injective.
   */
  datatype IpSyntax = IpSyntax(parse: string -> Option<IpAddr>, show: IpAddr -> string)

  ghost predicate Lawful(syntax: IpSyntax) {
    forall a :: syntax.parse(syntax.show(a)) == Some(a)
  }

  /** The addresses of one interface: at most one of each family. */
  datatype InterfaceInfo = InterfaceInfo(v4: Option<Ipv4>, v6: Option<Ipv6>) {

    predicate HasIp() {
      v4.Some? || v6.Some?
    }

    function Address(family: AddressFamily): (r: Option<IpAddr>)
      ensures r.Some? ==> FamilyOf(r.value) == family
      ensures family == IPv4 ==> (r.Some? <==> v4.Some?) && (r.Some? ==> r.value.v4 == v4.value)
      ensures family == IPv6 ==> (r.Some? <==> v6.Some?) && (r.Some? ==> r.value.v6 == v6.value)
    {
      match family
      case IPv4 => if v4.Some? then Some(V4(v4.value)) else None
      case IPv6 => if v6.Some? then Some(V6(v6.value)) else None
      case NonIp => None
    }
  }

  /** An interface has an IP exactly when it answers an address for some family. */
  lemma HasIpIffSomeAddress(info: InterfaceInfo)
    ensures info.HasIp() <==> exists f :: info.Address(f).Some?
  {
    if info.v4.Some? {
      assert info.Address(IPv4).Some?;
    } else if info.v6.Some? {
      assert info.Address(IPv6).Some?;
    }
  }

  /** One address entry as the interface library lists it. */
  datatype InterfaceAddress = InterfaceAddress(family: AddressFamily, address: Option<IpAddr>)

  /**
   * Extraction unwraps the first entry of the family and panics unless that entry carries an
   * address of the declared family; entries after it are never inspected.
   */
  predicate Readable(addrs: seq<InterfaceAddress>, family: AddressFamily) {
    |addrs| == 0 ||
    if addrs[0].family == family then
      addrs[0].address.Some? && FamilyOf(addrs[0].address.value) == family
    else
      Readable(addrs[1..], family)
  }

  /** The address of the first entry of `family`, or `None` when the list has no such entry. */
  function FirstOfFamily(addrs: seq<InterfaceAddress>, family: AddressFamily): (r: Option<IpAddr>)
    requires Readable(addrs, family)
    ensures r.None? <==> forall i | 0 <= i < |addrs| :: addrs[i].family != family
    ensures r.Some? ==> FamilyOf(r.value) == family
    ensures r.Some? ==> exists i | 0 <= i < |addrs| ::
      && addrs[i].family == family
      && addrs[i].address == r
      && forall j | 0 <= j < i :: addrs[j].family != family
  {
    if |addrs| == 0 then None
    else if addrs[0].family == family then addrs[0].address
    else
      var r := FirstOfFamily(addrs[1..], family);
      assert forall i | 1 <= i < |addrs| :: addrs[i] == addrs[1..][i - 1];
      r
  }

  function ExtractV4(addrs: seq<InterfaceAddress>): (r: Option<Ipv4>)
    requires Readable(addrs, IPv4)
    ensures r.None? <==> forall i | 0 <= i < |addrs| :: addrs[i].family != IPv4
    ensures r.Some? ==> exists i | 0 <= i < |addrs| ::
      && addrs[i].family == IPv4
      && addrs[i].address == Some(V4(r.value))
      && forall j | 0 <= j < i :: addrs[j].family != IPv4
  {
    var a := FirstOfFamily(addrs, IPv4);
    if a.Some? then Some(a.value.v4) else None
  }

  function ExtractV6(addrs: seq<InterfaceAddress>): (r: Option<Ipv6>)
    requires Readable(addrs, IPv6)
    ensures r.None? <==> forall i | 0 <= i < |addrs| :: addrs[i].family != IPv6
    ensures r.Some? ==> exists i | 0 <= i < |addrs| ::
      && addrs[i].family == IPv6
      && addrs[i].address == Some(V6(r.value))
      && forall j | 0 <= j < i :: addrs[j].family != IPv6
  {
    var a := FirstOfFamily(addrs, IPv6);
    if a.Some? then Some(a.value.v6) else None
  }

  /**
   * `From<&IfCfg> for InterfaceInfo`: each family's address is the one of the first entry of
   * that family, and the interface has an IP exactly when some entry is of an IP family.
   */
  function InfoOf(addrs: seq<InterfaceAddress>): (info: InterfaceInfo)
    requires Readable(addrs, IPv4) && Readable(addrs, IPv6)
    ensures info.Address(IPv4) == FirstOfFamily(addrs, IPv4)
    ensures info.Address(IPv6) == FirstOfFamily(addrs, IPv6)
    ensures info.HasIp() <==> exists i | 0 <= i < |addrs| :: addrs[i].family != NonIp
  {
    InterfaceInfo(ExtractV4(addrs), ExtractV6(addrs))
  }

  /** An interface as the system lists it, before filtering. */
  datatype SystemInterface = SystemInterface(name: string, addresses: seq<InterfaceAddress>)

  predicate AllReadable(raw: seq<SystemInterface>) {
    forall i | 0 <= i < |raw| :: Readable(raw[i].addresses, IPv4) && Readable(raw[i].addresses, IPv6)
  }

  /** The interface table: interface name to its address snapshot. */
  type IfTable = map<string, InterfaceInfo>

  /** Each listed interface paired with its snapshot, in listing order. */
  function Snapshots(raw: seq<SystemInterface>): (entries: seq<(string, InterfaceInfo)>)
    requires AllReadable(raw)
    ensures |entries| == |raw|
    ensures forall i | 0 <= i < |raw| :: entries[i] == (raw[i].name, InfoOf(raw[i].addresses))
  {
    seq(|raw|, i requires 0 <= i < |raw| && AllReadable(raw) => (raw[i].name, InfoOf(raw[i].addresses)))
  }

  /**
   * Inserts, in order, every entry whose snapshot has an IP; a later entry of the same name
   * replaces an earlier one, as a `HashMap` insert does.
   */
  function KeepWithIp(entries: seq<(string, InterfaceInfo)>): (table: IfTable)
    ensures forall n | n in table :: table[n].HasIp()
  {
    if |entries| == 0 then map[]
    else
      var table := KeepWithIp(entries[..|entries| - 1]);
      var (name, info) := entries[|entries| - 1];
      if info.HasIp() then table[name := info] else table
  }

  /** `IfConfig::new` after the system listing: only interfaces with an IP address are kept. */
  function IfConfigNew(raw: seq<SystemInterface>): (table: IfTable)
    requires AllReadable(raw)
    ensures forall n | n in table :: table[n].HasIp()
  {
    KeepWithIp(Snapshots(raw))
  }

  /** Every entry that has an IP is in the table under its name. */
  lemma {:induction false} KeepWithIpKeeps(entries: seq<(string, InterfaceInfo)>)
    ensures forall i | 0 <= i < |entries| :: entries[i].1.HasIp() ==> entries[i].0 in KeepWithIp(entries)
  {
    if |entries| > 0 {
      var init := entries[..|entries| - 1];
      KeepWithIpKeeps(init);
      assert forall i | 0 <= i < |init| :: entries[i] == init[i];
    }
  }

  /** Whatever is in the table is the last entry of that name that has an IP. */
  lemma {:induction false} KeepWithIpLastWins(entries: seq<(string, InterfaceInfo)>, n: string)
    requires n in KeepWithIp(entries)
    ensures exists i | 0 <= i < |entries| ::
      && entries[i] == (n, KeepWithIp(entries)[n])
      && forall j | i < j < |entries| :: entries[j].0 == n ==> !entries[j].1.HasIp()
  {
    var init := entries[..|entries| - 1];
    var last := entries[|entries| - 1];
    var t := KeepWithIp(entries);
    if n == last.0 && last.1.HasIp() {
      assert entries[|entries| - 1] == (n, t[n]);
    } else {
      var t0 := KeepWithIp(init);
      assert t0[n] == t[n];
      KeepWithIpLastWins(init, n);
      var i :| 0 <= i < |init| && init[i] == (n, t0[n])
        && forall j | i < j < |init| :: init[j].0 == n ==> !init[j].1.HasIp();
      assert entries[i] == (n, t[n]);
    }
  }

  /**
   * The interface table lists every interface that has an IP, under its name, with the
   * snapshot of the last listed interface of that name that has one.
   */
  lemma IfConfigNewContents(raw: seq<SystemInterface>)
    requires AllReadable(raw)
    ensures forall i | 0 <= i < |raw| :: InfoOf(raw[i].addresses).HasIp() ==> raw[i].name in IfConfigNew(raw)
    ensures forall n | n in IfConfigNew(raw) :: exists i | 0 <= i < |raw| ::
      && raw[i].name == n
      && IfConfigNew(raw)[n] == InfoOf(raw[i].addresses)
      && forall j | i < j < |raw| :: raw[j].name == n ==> !InfoOf(raw[j].addresses).HasIp()
  {
    var entries := Snapshots(raw);
    KeepWithIpKeeps(entries);
    forall n | n in IfConfigNew(raw)
      ensures exists i | 0 <= i < |raw| ::
        && raw[i].name == n
        && IfConfigNew(raw)[n] == InfoOf(raw[i].addresses)
        && forall j | i < j < |raw| :: raw[j].name == n ==> !InfoOf(raw[j].addresses).HasIp()
    {
      KeepWithIpLastWins(entries, n);
      var i :| 0 <= i < |entries| && entries[i] == (n, KeepWithIp(entries)[n])
        && forall j | i < j < |entries| :: entries[j].0 == n ==> !entries[j].1.HasIp();
      assert raw[i].name == n;
    }
  }

  /** The UniFi hardware model the program runs on. */
  datatype Platform = UDM | UDMP | UDMSE | UDR | Other

  /** The model string `ubnt-device-info` prints for each known platform. */
  function ModelName(p: Platform): Option<string> {
    match p
    case UDM => Some("UDM")
    case UDMP => Some("UDM-Pro")
    case UDMSE => Some("UDM-SE")
    case UDR => Some("UDR")
    case Other => None
  }

  /** `Platform::from_str`: total, with every unknown model read as `Other`. */
  function PlatformFromStr(s: string): (r: Result<Platform, ()>)
    ensures r.Ok?
    ensures r.value != Other ==> ModelName(r.value) == Some(s)
    ensures r.value == Other <==> forall p :: ModelName(p) != Some(s)
  {
    if s == "UDM" then Ok(UDM)
    else if s == "UDM-Pro" then Ok(UDMP)
    else if s == "UDM-SE" then Ok(UDMSE)
    else if s == "UDR" then Ok(UDR)
    else Ok(Other)
  }

  /** Parsing a known platform's model string gives that platform back. */
  lemma PlatformRoundTrip(p: Platform)
    requires p != Other
    ensures PlatformFromStr(ModelName(p).value) == Ok(p)
  {
  }
}

=== FILE: watcher.dfy ===
/** One reconciliation pass of a watcher over its zones and records (src/watcher.rs). */
module Watchers {
  import opened Results
  import opened System
  import opened Cloudflare
  import opened Settings

  /** The records of one interface kept in sync through one provider token. */
  datatype Watcher = Watcher(token: string, interface: Interface, watching: seq<Zone>)

  /** A request sent to the provider during a pass. */
  datatype Call =
    | LookupCall(zone: Id, name: string, ty: DnsRecordType)
    | UpdateCall(record: DnsRecord)
    | CreateCall(record: DnsRecord)

  datatype PollError =
    | InterfaceUnavailable(name: string)
    | Remote(cause: ApiError)
    | Refused(reason: RecordError)

  /** A value after (part of) a pass, the requests sent on the way, and how the pass ended. */
  datatype Trace<T> = Trace(value: T, calls: seq<Call>, outcome: Result<(), PollError>)

  /** Every watched record has an address type; the pass panics on any other type. */
  predicate Watchable(zones: seq<Zone>) {
    forall i, j | 0 <= i < |zones| && 0 <= j < |zones[i].records| :: IsAddressType(zones[i].records[j].ty)
  }

  /** The interface address a record of an address type should point at, if the interface has one. */
  function Desired(r: DnsRecord, info: InterfaceInfo): (a: Option<IpAddr>)
    requires IsAddressType(r.ty)
    ensures a.Some? ==> TypeOfFamily(FamilyOf(a.value)) == r.ty
    ensures r.ty == DnsRecordType.A ==> a == info.Address(IPv4)
    ensures r.ty == DnsRecordType.AAAA ==> a == info.Address(IPv6)
  {
    info.Address(FamilyOfType(r.ty).value)
  }

  /**
   * Applies `addr` to a record once its lookup, if any, is done: update, no-op or create. The
   * requests already sent are kept and at most one write follows them, carrying the new
   * content; a resolved record is only ever updated, an unresolved one only created, and
   * without a write the record is left as it was.
   */
  function Apply(r: DnsRecord, addr: IpAddr, api: Api, calls: seq<Call>): (t: Trace<DnsRecord>)
    ensures |calls| <= |t.calls| <= |calls| + 1 && t.calls[..|calls|] == calls
    ensures |t.calls| == |calls| + 1 ==>
      t.calls[|calls|] == (if r.id.Some? then UpdateCall(r.(content := ContentOf(addr))) else CreateCall(r.(content := ContentOf(addr))))
    ensures |t.calls| == |calls| <==> r.id.Some? && (!Accepts(r, addr) || r.content == ContentOf(addr))
    ensures |t.calls| == |calls| ==> t.value == r
  {
    if r.id.Some? then
      match TryUpdate(r, addr)
      case Err(e) => Trace(r, calls, Err(Refused(e)))
      case Ok(Applied(changed, updated)) =>
        if !changed then Trace(r, calls, Ok(()))
        else
          match Update(api, updated)
          case Err(e) => Trace(updated, calls + [UpdateCall(updated)], Err(Remote(e)))
          case Ok(reply) => Trace(reply, calls + [UpdateCall(updated)], Ok(()))
    else
      var sent := r.(content := ContentOf(addr));
      match Create(api, sent)
      case Err(e) => Trace(sent, calls + [CreateCall(sent)], Err(Remote(e)))
      case Ok(reply) => Trace(reply, calls + [CreateCall(sent)], Ok(()))
  }

  /** The body of the pass for one record of the zone `zone`. */
  function SyncRecord(zone: Id, r: DnsRecord, info: InterfaceInfo, api: Api): (t: Trace<DnsRecord>)
    requires IsAddressType(r.ty)
    ensures Desired(r, info).None? ==> t == Trace(r, [], Ok(()))
    ensures |t.calls| <= 2
    ensures t.outcome.Err? && |t.calls| == 0 ==> t.outcome == Err(Refused(AddressTypeMismatch(r.name)))
  {
    match Desired(r, info)
    case None => Trace(r, [], Ok(()))
    case Some(addr) =>
      if r.id.None? then
        var lookup := LookupCall(zone, r.name, r.ty);
        match api.get(zone, r.name, r.ty)
        case Err(e) => Trace(r, [lookup], Err(Remote(e)))
        case Ok(found) => Apply(if found.Some? then found.value else r, addr, api, [lookup])
      else Apply(r, addr, api, [])
  }

  /**
   * The requests one record's step sends: none when the interface has no address of the
   * record's family; otherwise one lookup first if and only if the record is unresolved, and
   * at most one write after it.
   */
  lemma StepRequests(zone: Id, r: DnsRecord, info: InterfaceInfo, api: Api)
    requires IsAddressType(r.ty)
    ensures var t := SyncRecord(zone, r, info, api);
      && (Desired(r, info).None? ==> t == Trace(r, [], Ok(())))
      && (Desired(r, info).Some? && r.id.None? ==>
           && |t.calls| >= 1
           && t.calls[0] == LookupCall(zone, r.name, r.ty)
           && forall k | 1 <= k < |t.calls| :: !t.calls[k].LookupCall?)
      && (r.id.Some? ==> forall k | 0 <= k < |t.calls| :: !t.calls[k].LookupCall?)
      && |t.calls| <= 2
      && forall k | 0 <= k < |t.calls| - 1 :: t.calls[k].LookupCall?
  {
  }

  /** A resolved record whose content already holds the address: nothing is sent or changed. */
  lemma NoWriteWhenCurrent(zone: Id, r: DnsRecord, info: InterfaceInfo, api: Api)
    requires IsAddressType(r.ty) && r.id.Some?
    requires Desired(r, info).Some? && r.content == ContentOf(Desired(r, info).value)
    ensures SyncRecord(zone, r, info, api) == Trace(r, [], Ok(()))
  {
  }

  /**
   * A resolved record whose content differs gets exactly one update carrying the new content;
   * on success the provider's reply becomes the record.
   */
  lemma UpdateWhenChanged(zone: Id, r: DnsRecord, info: InterfaceInfo, api: Api)
    requires IsAddressType(r.ty) && r.id.Some?
    requires Desired(r, info).Some? && Accepts(r, Desired(r, info).value)
    requires r.content != ContentOf(Desired(r, info).value)
    ensures var sent := r.(content := ContentOf(Desired(r, info).value));
      && SyncRecord(zone, r, info, api).calls == [UpdateCall(sent)]
      && (api.put(sent).Ok? ==> SyncRecord(zone, r, info, api) == Trace(api.put(sent).value, [UpdateCall(sent)], Ok(())))
      && (api.put(sent).Err? ==> SyncRecord(zone, r, info, api) == Trace(sent, [UpdateCall(sent)], Err(Remote(api.put(sent).error))))
  {
  }

  /** A resolved record whose type or content is of another family fails and is left as it was. */
  lemma MismatchRefused(zone: Id, r: DnsRecord, info: InterfaceInfo, api: Api)
    requires IsAddressType(r.ty) && r.id.Some?
    requires Desired(r, info).Some? && !Accepts(r, Desired(r, info).value)
    ensures SyncRecord(zone, r, info, api) == Trace(r, [], Err(Refused(AddressTypeMismatch(r.name))))
  {
  }

  /**
   * An unresolved record the provider does not know is created, with the interface address as
   * its content, right after its lookup.
   */
  lemma CreateWhenUnknown(zone: Id, r: DnsRecord, info: InterfaceInfo, api: Api)
    requires IsAddressType(r.ty) && r.id.None?
    requires Desired(r, info).Some? && api.get(zone, r.name, r.ty) == Ok(Option.None)
    ensures var sent := r.(content := ContentOf(Desired(r, info).value));
      && SyncRecord(zone, r, info, api).calls == [LookupCall(zone, r.name, r.ty), CreateCall(sent)]
      && (api.post(sent).Ok? ==> SyncRecord(zone, r, info, api).value == api.post(sent).value)
      && SyncRecord(zone, r, info, api).outcome.Ok? == api.post(sent).Ok?
  {
  }

  /**
   * A record the lookup finds replaces the local one wholesale: the rest of the step is the
   * step of the found record, after the lookup.
   */
  lemma LookupReplaces(zone: Id, r: DnsRecord, found: DnsRecord, info: InterfaceInfo, api: Api)
    requires IsAddressType(r.ty) && r.id.None? && Desired(r, info).Some?
    requires api.get(zone, r.name, r.ty) == Ok(Some(found))
    requires found.id.Some? && found.ty == r.ty
    ensures var rest := SyncRecord(zone, found, info, api);
      SyncRecord(zone, r, info, api) == Trace(rest.value, [LookupCall(zone, r.name, r.ty)] + rest.calls, rest.outcome)
  {
  }

  /** A failed lookup ends the step with the record untouched. */
  lemma LookupFailureKeepsRecord(zone: Id, r: DnsRecord, info: InterfaceInfo, api: Api)
    requires IsAddressType(r.ty) && r.id.None? && Desired(r, info).Some?
    requires api.get(zone, r.name, r.ty).Err?
    ensures SyncRecord(zone, r, info, api)
      == Trace(r, [LookupCall(zone, r.name, r.ty)], Err(Remote(api.get(zone, r.name, r.ty).error)))
  {
  }

  predicate AllAddressTypes(rs: seq<DnsRecord>) {
    forall i | 0 <= i < |rs| :: IsAddressType(rs[i].ty)
  }

  /** The records of one zone in order; the first failing record ends the pass. */
  function SyncRecords(zone: Id, rs: seq<DnsRecord>, info: InterfaceInfo, api: Api): (t: Trace<seq<DnsRecord>>)
    requires AllAddressTypes(rs)
    ensures |t.value| == |rs|
  {
    if |rs| == 0 then Trace([], [], Ok(()))
    else
      var head := SyncRecord(zone, rs[0], info, api);
      if head.outcome.Err? then Trace([head.value] + rs[1..], head.calls, head.outcome)
      else
        var tail := SyncRecords(zone, rs[1..], info, api);
        Trace([head.value] + tail.value, head.calls + tail.calls, tail.outcome)
  }

  /** The index of the first record whose step fails, or `|rs|` when none does. */
  function FirstFailure(zone: Id, rs: seq<DnsRecord>, info: InterfaceInfo, api: Api): (k: nat)
    requires AllAddressTypes(rs)
    ensures k <= |rs|
    ensures forall j | 0 <= j < k :: SyncRecord(zone, rs[j], info, api).outcome.Ok?
    ensures k < |rs| ==> SyncRecord(zone, rs[k], info, api).outcome.Err?
  {
    if |rs| == 0 then 0
    else if SyncRecord(zone, rs[0], info, api).outcome.Err? then 0
    else
      var k := FirstFailure(zone, rs[1..], info, api);
      assert forall j | 1 <= j < |rs| :: rs[j] == rs[1..][j - 1];
      k + 1
  }

  /** The requests of the steps of the first `n` records, in order. */
  function CallsOf(zone: Id, rs: seq<DnsRecord>, info: InterfaceInfo, api: Api, n: nat): seq<Call>
    requires AllAddressTypes(rs) && n <= |rs|
    decreases n
  {
    if n == 0 then []
    else
      assert AllAddressTypes(rs[1..]) by {
        assert forall j | 0 <= j < |rs| - 1 :: rs[1..][j] == rs[j + 1];
      }
      SyncRecord(zone, rs[0], info, api).calls + CallsOf(zone, rs[1..], info, api, n - 1)
  }

  /**
   * The pass over `rs` visits records in order: every record before the first failing one is
   * synced, that one ends the pass with its own error, and every record after it is untouched
   * and sends nothing.
   */
  predicate InOrder(zone: Id, rs: seq<DnsRecord>, info: InterfaceInfo, api: Api)
    requires AllAddressTypes(rs)
  {
    ValuesInOrder(zone, rs, info, api) && TraceInOrder(zone, rs, info, api)
  }

  /** Records up to the first failure hold their own step's value; later ones are untouched. */
  predicate ValuesInOrder(zone: Id, rs: seq<DnsRecord>, info: InterfaceInfo, api: Api)
    requires AllAddressTypes(rs)
  {
    var t := SyncRecords(zone, rs, info, api);
    var k := FirstFailure(zone, rs, info, api);
    && (forall j | 0 <= j < |rs| && j <= k :: t.value[j] == SyncRecord(zone, rs[j], info, api).value)
    && (forall j | k < j < |rs| :: t.value[j] == rs[j])
  }

  /** The pass ends as the first failing step does, having sent the requests up to it. */
  predicate TraceInOrder(zone: Id, rs: seq<DnsRecord>, info: InterfaceInfo, api: Api)
    requires AllAddressTypes(rs)
  {
    var t := SyncRecords(zone, rs, info, api);
    var k := FirstFailure(zone, rs, info, api);
    && (k == |rs| ==> t.outcome == Ok(()) && t.calls == CallsOf(zone, rs, info, api, |rs|))
    && (k < |rs| ==> t.outcome == SyncRecord(zone, rs[k], info, api).outcome && t.calls == CallsOf(zone, rs, info, api, k + 1))
  }

  /** A pass whose first record fails ends there. */
  lemma InOrderHead(zone: Id, rs: seq<DnsRecord>, info: InterfaceInfo, api: Api)
    requires AllAddressTypes(rs) && |rs| > 0
    requires SyncRecord(zone, rs[0], info, api).outcome.Err?
    ensures InOrder(zone, rs, info, api)
  {
    var t := SyncRecords(zone, rs, info, api);
    assert FirstFailure(zone, rs, info, api) == 0;
    assert CallsOf(zone, rs, info, api, 1) == SyncRecord(zone, rs[0], info, api).calls;
    forall j | 0 < j < |rs| ensures t.value[j] == rs[j] {
      assert t.value[j] == rs[1..][j - 1];
    }
  }

  /** A pass whose first record succeeds continues as the pass over the rest. */
  lemma InOrderCons(zone: Id, rs: seq<DnsRecord>, info: InterfaceInfo, api: Api)
    requires AllAddressTypes(rs) && |rs| > 0 && AllAddressTypes(rs[1..])
    requires SyncRecord(zone, rs[0], info, api).outcome.Ok?
    requires InOrder(zone, rs[1..], info, api)
    ensures InOrder(zone, rs, info, api)
  {
    ValuesInOrderCons(zone, rs, info, api);
    TraceInOrderCons(zone, rs, info, api);
  }

  /** The value half of `InOrderCons`. */
  lemma ValuesInOrderCons(zone: Id, rs: seq<DnsRecord>, info: InterfaceInfo, api: Api)
    requires AllAddressTypes(rs) && |rs| > 0 && AllAddressTypes(rs[1..])
    requires SyncRecord(zone, rs[0], info, api).outcome.Ok?
    requires ValuesInOrder(zone, rs[1..], info, api)
    ensures ValuesInOrder(zone, rs, info, api)
  {
    var t := SyncRecords(zone, rs, info, api);
    var tail := SyncRecords(zone, rs[1..], info, api);
    assert FirstFailure(zone, rs, info, api) == FirstFailure(zone, rs[1..], info, api) + 1;
    forall j | 0 < j < |rs| ensures t.value[j] == tail.value[j - 1] && rs[1..][j - 1] == rs[j] {
    }
  }

  /** The outcome and request half of `InOrderCons`. */
  lemma TraceInOrderCons(zone: Id, rs: seq<DnsRecord>, info: InterfaceInfo, api: Api)
    requires AllAddressTypes(rs) && |rs| > 0 && AllAddressTypes(rs[1..])
    requires SyncRecord(zone, rs[0], info, api).outcome.Ok?
    requires TraceInOrder(zone, rs[1..], info, api)
    ensures TraceInOrder(zone, rs, info, api)
  {
    var t := SyncRecords(zone, rs, info, api);
    var tail := SyncRecords(zone, rs[1..], info, api);
    var k := FirstFailure(zone, rs, info, api);
    var k' := FirstFailure(zone, rs[1..], info, api);
    var head := SyncRecord(zone, rs[0], info, api);
    assert k == k' + 1;
    assert t.calls == head.calls + tail.calls && t.outcome == tail.outcome;
    if k < |rs| {
      assert rs[1..][k'] == rs[k];
      assert CallsOf(zone, rs, info, api, k + 1) == head.calls + CallsOf(zone, rs[1..], info, api, k' + 1);
    } else {
      assert CallsOf(zone, rs, info, api, |rs|) == head.calls + CallsOf(zone, rs[1..], info, api, |rs| - 1);
    }
  }

  /** Records are visited in order; the first failing one ends the pass. */
  lemma {:induction false} SyncRecordsInOrder(zone: Id, rs: seq<DnsRecord>, info: InterfaceInfo, api: Api)
    requires AllAddressTypes(rs)
    ensures InOrder(zone, rs, info, api)
  {
    if |rs| > 0 {
      if SyncRecord(zone, rs[0], info, api).outcome.Err? {
        InOrderHead(zone, rs, info, api);
      } else {
        assert AllAddressTypes(rs[1..]) by {
          assert forall j | 0 <= j < |rs| - 1 :: rs[1..][j] == rs[j + 1];
        }
        SyncRecordsInOrder(zone, rs[1..], info, api);
        InOrderCons(zone, rs, info, api);
      }
    }
  }

  /** The zones of a watcher in order; a failing record ends the pass. */
  function SyncZones(zones: seq<Zone>, info: InterfaceInfo, api: Api): (t: Trace<seq<Zone>>)
    requires Watchable(zones)
    ensures |t.value| == |zones|
    ensures forall i | 0 <= i < |zones| ::
      && t.value[i].id == zones[i].id
      && t.value[i].name == zones[i].name
      && |t.value[i].records| == |zones[i].records|
  {
    if |zones| == 0 then Trace([], [], Ok(()))
    else
      var z := zones[0];
      assert AllAddressTypes(z.records) by {
        assert forall j | 0 <= j < |z.records| :: zones[0].records[j] == z.records[j];
      }
      var head := SyncRecords(z.id, z.records, info, api);
      var synced := z.(records := head.value);
      if head.outcome.Err? then Trace([synced] + zones[1..], head.calls, head.outcome)
      else
        assert Watchable(zones[1..]) by {
          assert forall i | 0 <= i < |zones| - 1 :: zones[1..][i] == zones[i + 1];
        }
        var tail := SyncZones(zones[1..], info, api);
        Trace([synced] + tail.value, head.calls + tail.calls, tail.outcome)
  }

  lemma WatchableTail(zones: seq<Zone>)
    requires Watchable(zones) && |zones| > 0
    ensures Watchable(zones[1..]) && AllAddressTypes(zones[0].records)
  {
    assert forall i | 0 <= i < |zones| - 1 :: zones[1..][i] == zones[i + 1];
  }

  /** The requests of the record passes of the first `n` zones, in order. */
  function ZoneCallsOf(zones: seq<Zone>, info: InterfaceInfo, api: Api, n: nat): seq<Call>
    requires Watchable(zones) && n <= |zones|
    decreases n
  {
    if n == 0 then []
    else
      WatchableTail(zones);
      SyncRecords(zones[0].id, zones[0].records, info, api).calls + ZoneCallsOf(zones[1..], info, api, n - 1)
  }

  /**
   * Zone `k` is where the pass `t` over `zones` stopped: every zone before it passed, its error
   * is the pass's, the requests are those of zones `0..k` only, and no later zone is touched.
   */
  predicate ZonesStopAt(zones: seq<Zone>, info: InterfaceInfo, api: Api, t: Trace<seq<Zone>>, k: int)
    requires Watchable(zones)
    requires |t.value| == |zones|
  {
    && 0 <= k < |zones|
    && (forall i | 0 <= i <= k :: AllAddressTypes(zones[i].records))
    && (forall i | 0 <= i < k :: SyncRecords(zones[i].id, zones[i].records, info, api).outcome.Ok?)
    && SyncRecords(zones[k].id, zones[k].records, info, api).outcome == t.outcome
    && t.calls == ZoneCallsOf(zones, info, api, k + 1)
    && t.value[k + 1..] == zones[k + 1..]
  }

  /** A pass whose first zone fails stops there. */
  lemma ZonesStopAtHead(zones: seq<Zone>, info: InterfaceInfo, api: Api)
    requires Watchable(zones) && |zones| > 0
    requires SyncRecords(zones[0].id, zones[0].records, info, api).outcome.Err?
    ensures ZonesStopAt(zones, info, api, SyncZones(zones, info, api), 0)
  {
    WatchableTail(zones);
    var head := SyncRecords(zones[0].id, zones[0].records, info, api);
    assert ZoneCallsOf(zones, info, api, 1) == head.calls + [];
    assert SyncZones(zones, info, api).value[1..] == zones[1..];
  }

  /** Prefixing a passing zone to a pass that stops at `k` gives a pass that stops at `k + 1`. */
  lemma ZonesStopAtShift(zones: seq<Zone>, info: InterfaceInfo, api: Api, t: Trace<seq<Zone>>,
                         rest: Trace<seq<Zone>>, synced: Zone, k: int)
    requires Watchable(zones) && |zones| > 0 && Watchable(zones[1..]) && AllAddressTypes(zones[0].records)
    requires SyncRecords(zones[0].id, zones[0].records, info, api).outcome.Ok?
    requires |rest.value| == |zones| - 1
    requires t == Trace([synced] + rest.value, SyncRecords(zones[0].id, zones[0].records, info, api).calls + rest.calls, rest.outcome)
    requires ZonesStopAt(zones[1..], info, api, rest, k)
    ensures ZonesStopAt(zones, info, api, t, k + 1)
  {
    var head := SyncRecords(zones[0].id, zones[0].records, info, api);
    forall i | 0 < i <= k + 1
      ensures zones[i] == zones[1..][i - 1]
    {
    }
    assert ZoneCallsOf(zones, info, api, k + 2) == head.calls + ZoneCallsOf(zones[1..], info, api, k + 1);
    assert zones[1..][k + 1..] == zones[k + 2..];
    assert t.value[k + 2..] == rest.value[k + 1..];
  }

  /** A pass whose first zone passes stops one zone later than the pass over the rest. */
  lemma ZonesStopAtCons(zones: seq<Zone>, info: InterfaceInfo, api: Api, k: int)
    requires Watchable(zones) && |zones| > 0 && Watchable(zones[1..])
    requires SyncRecords(zones[0].id, zones[0].records, info, api).outcome.Ok?
    requires ZonesStopAt(zones[1..], info, api, SyncZones(zones[1..], info, api), k)
    ensures ZonesStopAt(zones, info, api, SyncZones(zones, info, api), k + 1)
  {
    WatchableTail(zones);
    var head := SyncRecords(zones[0].id, zones[0].records, info, api);
    var rest := SyncZones(zones[1..], info, api);
    var synced := zones[0].(records := head.value);
    assert SyncZones(zones, info, api) == Trace([synced] + rest.value, head.calls + rest.calls, rest.outcome);
    ZonesStopAtShift(zones, info, api, SyncZones(zones, info, api), rest, synced, k);
  }

  /** After a failing zone, no later zone is touched. */
  lemma {:induction false} SyncZonesStops(zones: seq<Zone>, info: InterfaceInfo, api: Api)
    requires Watchable(zones)
    requires SyncZones(zones, info, api).outcome.Err?
    ensures exists k :: ZonesStopAt(zones, info, api, SyncZones(zones, info, api), k)
  {
    assert AllAddressTypes(zones[0].records);
    if SyncRecords(zones[0].id, zones[0].records, info, api).outcome.Err? {
      ZonesStopAtHead(zones, info, api);
    } else {
      assert Watchable(zones[1..]) by {
        assert forall i | 0 <= i < |zones| - 1 :: zones[1..][i] == zones[i + 1];
      }
      SyncZonesStops(zones[1..], info, api);
      var k :| ZonesStopAt(zones[1..], info, api, SyncZones(zones[1..], info, api), k);
      ZonesStopAtCons(zones, info, api, k);
    }
  }

  /**
   * A pass over zones succeeds exactly when every zone's records pass, and then sends the
   * requests of every zone in order.
   */
  lemma {:induction false} SyncZonesCompletes(zones: seq<Zone>, info: InterfaceInfo, api: Api)
    requires Watchable(zones)
    ensures var t := SyncZones(zones, info, api);
      && (forall i | 0 <= i < |zones| :: AllAddressTypes(zones[i].records))
      && (t.outcome.Ok? <==> forall i | 0 <= i < |zones| :: SyncRecords(zones[i].id, zones[i].records, info, api).outcome.Ok?)
      && (t.outcome.Ok? ==> t.calls == ZoneCallsOf(zones, info, api, |zones|))
  {
    if |zones| > 0 {
      WatchableTail(zones);
      SyncZonesCompletes(zones[1..], info, api);
      forall i | 0 < i < |zones| ensures zones[i] == zones[1..][i - 1] {
      }
    }
  }

  /**
   * `Watcher::poll`: refreshes the interface snapshot from `table`, then syncs every record in
   * zone order, then record order. An interface missing from the table fails the pass before
   * any record is touched.
   */
  function Poll(w: Watcher, table: IfTable, api: Api): (p: Trace<Watcher>)
    requires Watchable(w.watching)
    ensures w.interface.name !in table ==> p == Trace(w, [], Err(InterfaceUnavailable(w.interface.name)))
    ensures w.interface.name in table ==>
      && p.value.token == w.token
      && p.value.interface == w.interface.(info := table[w.interface.name])
      && |p.value.watching| == |w.watching|
    ensures w.interface.name in table ==>
      var t := SyncZones(w.watching, table[w.interface.name], api);
      p.value.watching == t.value && p.calls == t.calls && p.outcome == t.outcome
  {
    var name := w.interface.name;
    if name !in table then Trace(w, [], Err(InterfaceUnavailable(name)))
    else
      var info := table[name];
      var t := SyncZones(w.watching, info, api);
      Trace(w.(interface := w.interface.(info := info), watching := t.value), t.calls, t.outcome)
  }

  /**
   * A found interface whose pass fails stopped at one zone: the zones before it passed, that
   * zone's error is the pass's, only the requests up to it were sent, and later zones are
   * untouched.
   */
  lemma PollStops(w: Watcher, table: IfTable, api: Api)
    requires Watchable(w.watching) && w.interface.name in table
    requires Poll(w, table, api).outcome.Err?
    ensures var p := Poll(w, table, api);
      exists k :: ZonesStopAt(w.watching, table[w.interface.name], api, Trace(p.value.watching, p.calls, p.outcome), k)
  {
    var info := table[w.interface.name];
    SyncZonesStops(w.watching, info, api);
    var t := SyncZones(w.watching, info, api);
    assert Trace(t.value, t.calls, t.outcome) == t;
  }

  /**
   * A found interface's pass succeeds exactly when every zone's records pass, and then it has
   * sent every zone's requests, in zone order.
   */
  lemma PollCompletes(w: Watcher, table: IfTable, api: Api)
    requires Watchable(w.watching) && w.interface.name in table
    ensures var p := Poll(w, table, api);
      var info := table[w.interface.name];
      && (forall i | 0 <= i < |w.watching| :: AllAddressTypes(w.watching[i].records))
      && (p.outcome.Ok? <==>
           forall i | 0 <= i < |w.watching| :: SyncRecords(w.watching[i].id, w.watching[i].records, info, api).outcome.Ok?)
      && (p.outcome.Ok? ==> p.calls == ZoneCallsOf(w.watching, info, api, |w.watching|))
  {
    SyncZonesCompletes(w.watching, table[w.interface.name], api);
  }

  /** Every write passes its request's id check: a create carries no id, an update carries one. */
  predicate IdChecked(calls: seq<Call>) {
    forall k | 0 <= k < |calls| ::
      && (calls[k].CreateCall? ==> calls[k].record.id.None?)
      && (calls[k].UpdateCall? ==> calls[k].record.id.Some?)
  }

  lemma IdCheckedConcat(a: seq<Call>, b: seq<Call>)
    requires IdChecked(a) && IdChecked(b)
    ensures IdChecked(a + b)
  {
    forall k | |a| <= k < |a + b| ensures (a + b)[k] == b[k - |a|] {
    }
  }

  /** One record's step creates only records without an id and updates only records with one. */
  lemma StepWritesChecked(zone: Id, r: DnsRecord, info: InterfaceInfo, api: Api)
    requires IsAddressType(r.ty)
    ensures IdChecked(SyncRecord(zone, r, info, api).calls)
  {
  }

  lemma {:induction false} RecordsWritesChecked(zone: Id, rs: seq<DnsRecord>, info: InterfaceInfo, api: Api)
    requires AllAddressTypes(rs)
    ensures IdChecked(SyncRecords(zone, rs, info, api).calls)
  {
    if |rs| > 0 {
      StepWritesChecked(zone, rs[0], info, api);
      if SyncRecord(zone, rs[0], info, api).outcome.Ok? {
        assert AllAddressTypes(rs[1..]) by {
          assert forall j | 0 <= j < |rs| - 1 :: rs[1..][j] == rs[j + 1];
        }
        RecordsWritesChecked(zone, rs[1..], info, api);
        IdCheckedConcat(SyncRecord(zone, rs[0], info, api).calls, SyncRecords(zone, rs[1..], info, api).calls);
      }
    }
  }

  lemma {:induction false} ZonesWritesChecked(zones: seq<Zone>, info: InterfaceInfo, api: Api)
    requires Watchable(zones)
    ensures IdChecked(SyncZones(zones, info, api).calls)
  {
    if |zones| > 0 {
      WatchableTail(zones);
      var head := SyncRecords(zones[0].id, zones[0].records, info, api);
      RecordsWritesChecked(zones[0].id, zones[0].records, info, api);
      if head.outcome.Ok? {
        ZonesWritesChecked(zones[1..], info, api);
        IdCheckedConcat(head.calls, SyncZones(zones[1..], info, api).calls);
      }
    }
  }

  /**
   * A pass never trips the id checks of `create` and `update`: every record it creates has no
   * id and every record it updates has one, so each write reaches the provider.
   */
  lemma PollWritesChecked(w: Watcher, table: IfTable, api: Api)
    requires Watchable(w.watching)
    ensures var calls := Poll(w, table, api).calls;
      && IdChecked(calls)
      && (forall k | 0 <= k < |calls| && calls[k].CreateCall? :: Create(api, calls[k].record) == api.post(calls[k].record))
      && (forall k | 0 <= k < |calls| && calls[k].UpdateCall? :: Update(api, calls[k].record) == api.put(calls[k].record))
  {
    if w.interface.name in table {
      ZonesWritesChecked(w.watching, table[w.interface.name], api);
    }
  }

  /** A reply that carries an id and echoes the type and content of the record sent. */
  predicate Echoes(sent: DnsRecord, reply: Result<DnsRecord, ApiError>) {
    reply.Ok? ==> reply.value.id.Some? && reply.value.ty == sent.ty && reply.value.content == sent.content
  }

  /**
   * A provider that stores what it is sent: found records carry their id, and writes echo the
   * record with its id.
   */
  ghost predicate Faithful(api: Api) {
    && (forall z, n, ty :: api.get(z, n, ty).Ok? && api.get(z, n, ty).value.Some? ==> api.get(z, n, ty).value.value.id.Some?)
    && (forall r :: Echoes(r, api.put(r)))
    && (forall r :: Echoes(r, api.post(r)))
  }

  /** Converged: resolved and pointing at the interface address whenever the interface has one. */
  predicate Settled(r: DnsRecord, info: InterfaceInfo) {
    && IsAddressType(r.ty)
    && (Desired(r, info).Some? ==> r.id.Some? && r.content == ContentOf(Desired(r, info).value))
  }

  /** A successful step leaves its record converged, with its type unchanged. */
  lemma StepSettles(zone: Id, r: DnsRecord, info: InterfaceInfo, api: Api)
    requires Faithful(api) && IsAddressType(r.ty)
    requires SyncRecord(zone, r, info, api).outcome.Ok?
    ensures Settled(SyncRecord(zone, r, info, api).value, info)
    ensures SyncRecord(zone, r, info, api).value.ty == r.ty
  {
    var t := SyncRecord(zone, r, info, api);
    match Desired(r, info)
    case None =>
    case Some(addr) =>
      var start := r;
      if r.id.None? {
        var found := api.get(zone, r.name, r.ty).value;
        start := if found.Some? then found.value else r;
      }
      if start.id.Some? {
        assert Accepts(start, addr);
        assert start.ty == r.ty;
        var updated := start.(content := ContentOf(addr));
        if start.content != ContentOf(addr) {
          assert Echoes(updated, api.put(updated));
        }
      } else {
        var sent := start.(content := ContentOf(addr));
        assert Echoes(sent, api.post(sent));
      }
  }

  /** A converged record's step sends nothing and changes nothing, whatever the provider. */
  lemma SettledIsQuiet(zone: Id, r: DnsRecord, info: InterfaceInfo, api: Api)
    requires Settled(r, info)
    ensures SyncRecord(zone, r, info, api) == Trace(r, [], Ok(()))
  {
  }

  ghost predicate ZonesSettled(zones: seq<Zone>, info: InterfaceInfo) {
    forall i, j | 0 <= i < |zones| && 0 <= j < |zones[i].records| :: Settled(zones[i].records[j], info)
  }

  lemma {:induction false} RecordsSettle(zone: Id, rs: seq<DnsRecord>, info: InterfaceInfo, api: Api)
    requires Faithful(api) && AllAddressTypes(rs)
    requires SyncRecords(zone, rs, info, api).outcome.Ok?
    ensures forall j | 0 <= j < |rs| :: Settled(SyncRecords(zone, rs, info, api).value[j], info)
  {
    if |rs| > 0 {
      var head := SyncRecord(zone, rs[0], info, api);
      StepSettles(zone, rs[0], info, api);
      RecordsSettle(zone, rs[1..], info, api);
    }
  }

  lemma {:induction false} ZonesSettle(zones: seq<Zone>, info: InterfaceInfo, api: Api)
    requires Faithful(api) && Watchable(zones)
    requires SyncZones(zones, info, api).outcome.Ok?
    ensures ZonesSettled(SyncZones(zones, info, api).value, info)
  {
    if |zones| > 0 {
      var z := zones[0];
      assert AllAddressTypes(z.records) by {
        assert forall j | 0 <= j < |z.records| :: zones[0].records[j] == z.records[j];
      }
      RecordsSettle(z.id, z.records, info, api);
      assert Watchable(zones[1..]) by {
        assert forall i | 0 <= i < |zones| - 1 :: zones[1..][i] == zones[i + 1];
      }
      ZonesSettle(zones[1..], info, api);
      var t := SyncZones(zones, info, api);
      var tail := SyncZones(zones[1..], info, api);
      forall i, j | 0 <= i < |t.value| && 0 <= j < |t.value[i].records|
        ensures Settled(t.value[i].records[j], info)
      {
        if i > 0 {
          assert t.value[i] == tail.value[i - 1];
        }
      }
    }
  }

  lemma {:induction false} SettledRecordsAreQuiet(zone: Id, rs: seq<DnsRecord>, info: InterfaceInfo, api: Api)
    requires forall j | 0 <= j < |rs| :: Settled(rs[j], info)
    ensures AllAddressTypes(rs)
    ensures SyncRecords(zone, rs, info, api) == Trace(rs, [], Ok(()))
  {
    if |rs| > 0 {
      SettledIsQuiet(zone, rs[0], info, api);
      SettledRecordsAreQuiet(zone, rs[1..], info, api);
      assert [rs[0]] + rs[1..] == rs;
    }
  }

  lemma {:induction false} SettledZonesAreQuiet(zones: seq<Zone>, info: InterfaceInfo, api: Api)
    requires ZonesSettled(zones, info)
    ensures Watchable(zones)
    ensures SyncZones(zones, info, api) == Trace(zones, [], Ok(()))
  {
    if |zones| > 0 {
      var z := zones[0];
      assert forall j | 0 <= j < |z.records| :: Settled(z.records[j], info) by {
        assert forall j | 0 <= j < |z.records| :: zones[0].records[j] == z.records[j];
      }
      SettledRecordsAreQuiet(z.id, z.records, info, api);
      assert ZonesSettled(zones[1..], info) by {
        assert forall i | 0 <= i < |zones| - 1 :: zones[1..][i] == zones[i + 1];
      }
      SettledZonesAreQuiet(zones[1..], info, api);
      assert z.(records := z.records) == z;
      assert [z] + zones[1..] == zones;
    }
  }

  /**
   * Idempotence of the pass: after a successful pass against a faithful provider, a second
   * pass over the same interface snapshot sends no request at all and changes nothing,
   * whatever provider it talks to.
   */
  lemma PollTwiceIsQuiet(w: Watcher, table: IfTable, api: Api, later: Api)
    requires Watchable(w.watching) && Faithful(api)
    requires Poll(w, table, api).outcome.Ok?
    ensures Watchable(Poll(w, table, api).value.watching)
    ensures Poll(Poll(w, table, api).value, table, later) == Trace(Poll(w, table, api).value, [], Ok(()))
  {
    var name := w.interface.name;
    var info := table[name];
    var w1 := Poll(w, table, api).value;
    ZonesSettle(w.watching, info, api);
    SettledZonesAreQuiet(w1.watching, info, later);
    assert w1.interface.(info := info) == w1.interface;
    assert w1.(interface := w1.interface, watching := w1.watching) == w1;
  }
}
